=== FILE: README.md ===
# Palette utilities of the gz3doom engine, modelled in Dafny

This project models the palette routines of `src/common/utility/palette.cpp`:

- **BestColor**: the linear nearest-colour search by squared RGB distance.
- **PTM_BestColor**: the perceptual variant. It uses a per-channel cost table, keeps that table in a process-wide cache keyed by gamma, and has a forward mode (first minimum, early exit on a zero cost) and a reverse mode (last minimum).
- **DoBlending / DoBlending_SSE2**: blend a run of pixels towards a solid colour. The SSE2 four-pixel loop is modelled lane by lane. Each register is eight 16-bit lanes held in naturals, and each intrinsic is written as its lane rule.
- **sortforremap / sortforremap2**: the two `qsort` comparators. They model the 32-bit unsigned subtraction read back as a signed `int`.
- **MakeRemap**: maps a foreign palette onto the base palette. It builds a work list, sorts it, finds exact matches between adjacent items, and sends the leftovers to `BestColor` over entries 1..254.
- **MakeGoodRemap**: frees index 0 (the transparent index). It uses an exact copy of colour 0 when the palette has one. Otherwise it finds the highest duplicated colour pair in a sorted, index-tagged copy of the palette and turns the lower index of that pair into colour 0.

Modules follow the structure of the code:

| file | module | contents |
|---|---|---|
| `colors.dfy` | `Colors` | `PalEntry` (bytes b, g, r, a in memory order), the packed word, the 24-bit colour, 32-bit signed reinterpretation |
| `bestcolor.dfy` | `NearestColor` | `BestColor` |
| `ptm.dfy` | `PerceptualColor` | `PTM_BestColor` |
| `blending.dfy` | `Blending` | `DoBlending` and `DoBlending_SSE2` |
| `sorting.dfy` | `Sorting` | the contract of `qsort` (a permutation, ordered by the comparator) and counting lemmas |
| `remap.dfy` | `Remap` | `RemappingWork`, `sortforremap2`, `MakeRemap` |
| `goodremap.dfy` | `GoodRemap` | `sortforremap`, `MakeGoodRemap` |

Pointers become values:

- Buffers are sequences.
- Routines that write through a pointer return the new buffer instead.
- A null `useful` pointer is the `Mask.AllUseful` case.
- The static cache of `PTM_BestColor` is a `PowCache` value, passed in and returned.

`qsort` is modelled by its contract alone: the output is a permutation of the input, ordered by the comparator. Every property below is proved from that contract, so it holds for any order `qsort` gives to items that compare equal.

## Model

| member | source | states |
|---|---|---|
| Colors.UnpackPack | src/common/utility/palette.cpp:47 | reading the packed word of an entry back as a `PalEntry` gives the same entry |
| Colors.PackUnpack | src/common/utility/palette.cpp:47 | every 32-bit word is the packed word of the entry it denotes |
| Colors.Rgb24Injective | src/common/utility/palette.cpp:358 | two entries have the same `& 0xFFFFFF` colour exactly when their r, g and b agree |
| Colors.MakeRgb | src/common/utility/palette.cpp:205 | `MAKERGB(r, g, b)` is the word of the entry (b, g, r) with a zero high byte |
| Colors.ColorDifference | src/common/utility/palette.cpp:320 | the wrapped 32-bit difference of two 24-bit colours, read as a signed int, is their true difference, so the comparators never overflow |
| NearestColor.BestColor | src/common/utility/palette.cpp:45-67 | an empty range gives `first`; otherwise the result is the lowest index of minimum squared distance in [first, num) |
| NearestColor.DistBelowStart | src/common/utility/palette.cpp:49 | no distance between bytes reaches the initial bound 3·257², so the first index always replaces it |
| NearestColor.BestIsUnique | src/common/utility/palette.cpp:57-63 | the strict `<` makes the result unique: two lowest minima are the same index |
| NearestColor.BestIsFirstExact | src/common/utility/palette.cpp:59-60 | when the range holds the exact colour, the result is the lowest index holding it |
| NearestColor.GreyRampNearest | src/common/utility/palette.cpp:45-67 | on a grey ramp 0..255, the colour (128, 130, 127) is nearest to grey 128 |
| PerceptualColor.SelectBest | src/common/utility/palette.cpp:90-105 | an empty range gives 0; forward mode gives the lowest minimum-cost index and, if some cost is zero, the first zero-cost index; reverse mode gives the highest minimum-cost index |
| PerceptualColor.InitialCacheCoherent | src/common/utility/palette.cpp:75-77 | the initial static state says no table has been built yet and is coherent |
| PerceptualColor.Refresh | src/common/utility/palette.cpp:82-88 | afterwards the cache holds the table of the requested gamma; the cache is left untouched exactly when it was already built for that gamma |
| PerceptualColor.PtmBestColor | src/common/utility/palette.cpp:72-106 | the selection is the one made with the table built for the requested gamma, whatever the cache held; the returned cache is coherent and keyed by that gamma |
| PerceptualColor.CostZeroIffExact | src/common/utility/palette.cpp:92-95 | under a table that is zero only at difference 0, a colour costs nothing exactly when it is the requested colour |
| PerceptualColor.ForwardAgreesWithBestColor | src/common/utility/palette.cpp:96-99 | under a cost table that is zero only at difference 0 (a positive gamma), when the range holds the exact colour, forward mode and `BestColor` choose the same index |
| Blending.BlendChannelBetween | src/common/utility/palette.cpp:237-239 | the scalar channel `(c·a + s·(256-a)) >> 8` is the floor of the weighted mean and lies between the source and the solid channel |
| Blending.ColourLaneExact | src/common/utility/palette.cpp:149-167 | in a colour lane, `mullo` does not wrap, `adds` does not saturate, and `packus` does not clamp, so the lane computes the scalar formula |
| Blending.HighLaneZero | src/common/utility/palette.cpp:130-150 | lanes 3 and 7 (the high bytes) of both the premultiplied colour register and the one-minus-alpha register are zero, so a vector step leaves zero in those lanes whatever the source high byte |
| Blending.UnpackedPixel | src/common/utility/palette.cpp:160-161 | `unpacklo` holds pixels 0 and 1 and `unpackhi` holds pixels 2 and 3, one byte per lane |
| Blending.PackedPixel | src/common/utility/palette.cpp:168 | `packus` stores pixels 0 and 1 from the first register and pixels 2 and 3 from the second |
| Blending.SseBlockPixel | src/common/utility/palette.cpp:158-168 | each pixel of one vector iteration gets the scalar formula's colour and a zero high byte |
| Blending.SseBlockIsScalar | src/common/utility/palette.cpp:156-170 | one vector iteration equals the scalar formula on all four pixels, with a zero high byte |
| Blending.SseStep | src/common/utility/palette.cpp:156-169 | one iteration extends the blended prefix by four pixels and leaves the rest of the buffer alone |
| Blending.DoBlendingSse2 | src/common/utility/palette.cpp:115-190 | the first `count / 4 * 4` pixels are blended by the scalar formula with a zero high byte; all later pixels are untouched |
| Blending.DispatchMasks | src/common/utility/palette.cpp:217-219 | `count & ~3` and `count & 3` split a 32-bit count into the largest multiple of 4 at most it and the remainder |
| Blending.VectorPrefix | src/common/utility/palette.cpp:215-226 | the vector path handles a multiple of 4 pixels, and handles some pixels only when SSE2 is present and `count >= 4`; it then leaves fewer than 4 pixels for the scalar loop |
| Blending.DoBlending | src/common/utility/palette.cpp:193-241 | pixels past `count` are kept; a = 0 copies the source; a = 256 fills with `MAKERGB`; otherwise every pixel's r, g and b follow the scalar formula on both paths, and without SSE2 the whole result is the scalar reference |
| Sorting.Sort | src/common/utility/palette.cpp:377 | the sorted output is a permutation of the input, ordered by the comparator |
| Sorting.CountIfPermutation | src/common/utility/palette.cpp:370 | sorting does not change the number of pending items `k` |
| Sorting.DistinctPermutation | src/common/utility/palette.cpp:377 | a permutation of a list without repeats has no repeats |
| Remap.SortForRemap2Sign | src/common/utility/palette.cpp:323-336 | `sortforremap2` orders by ascending colour and, for equal colours, puts foreign items before base items; it is antisymmetric |
| Remap.WorkLeIsTotalPreorder | src/common/utility/palette.cpp:323-336 | `sortforremap2` is a consistent comparator: total and transitive |
| Remap.BaseItems | src/common/utility/palette.cpp:356-361 | the first 255 items are the base entries 1..255 with their colours, none pending |
| Remap.ForeignItem | src/common/utility/palette.cpp:362-376 | a useful entry is appended as a pending item and raises `k`; a useless entry is remapped to 0 |
| Remap.BuildWorkspace | src/common/utility/palette.cpp:356-376 | the list holds the base entries, then one pending item per useful entry in index order, without repeats; `k` counts the pending items; useless entries map to 0 |
| Remap.SortedFacts | src/common/utility/palette.cpp:377 | the sorted list is well formed and has each foreign index at most once; it holds every base entry and every useful foreign entry |
| Remap.ExactNeighbour | src/common/utility/palette.cpp:383-391 | after sorting, the only foreign item of a colour the base palette also holds is directly followed by a base item of that colour |
| Remap.MatchStep | src/common/utility/palette.cpp:385-390 | an exact match writes the following base item's index, of the same colour, at the foreign index and nowhere else, marks the item 2 and lowers `k` by one |
| Remap.ExactPass | src/common/utility/palette.cpp:379-393 | every pending item directly followed by a base item of its colour is matched to exactly that base entry; `k` still counts the pending items; every index without a matched item keeps its value |
| Remap.NearStep | src/common/utility/palette.cpp:400-405 | a pending item's index gets exactly `t`, the `BestColor` result for its colour over entries 1..254; every other index, exact matches included, keeps its target |
| Remap.NearPass | src/common/utility/palette.cpp:395-407 | afterwards every useful entry has an acceptable target; only indices of pending items are written, so exact matches keep their values; when `k` is 0 the table is returned unchanged |
| Remap.GoodMeaning | src/common/utility/palette.cpp:397-407 | an acceptable target has the exact colour when the base palette holds it in 1..254; when the base palette holds it nowhere in 1..255, the target is the nearest colour in 1..254 |
| Remap.SoleColorsExact | src/common/utility/palette.cpp:381-393 | a useful colour shared with no other useful entry, and held by the base palette in 1..255, is matched exactly |
| Remap.MakeRemap | src/common/utility/palette.cpp:347-408 | entries from `numcolors` on are kept; useless entries map to 0; useful entries get a target in 1..255: the exact colour when the base palette holds it in 1..254, or when it holds it only at 255 and the colour is used by no other useful entry (that entry maps to 255); the nearest colour in 1..254 when the base palette does not hold it in 1..255 |
| GoodRemap.SortForRemapSign | src/common/utility/palette.cpp:318-321 | `sortforremap` returns the difference of the two 24-bit colours and ignores the high byte |
| GoodRemap.EntryLeIsTotalPreorder | src/common/utility/palette.cpp:318-321 | `sortforremap` is total and transitive, and orders entries exactly by colour |
| GoodRemap.BitOrBelow | src/common/utility/palette.cpp:443 | ORing the index into a byte stays a byte |
| GoodRemap.Tagged | src/common/utility/palette.cpp:443 | `BaseColors[i] \| (i << 24)` keeps the colour, and puts the index in the high byte when that byte was zero |
| GoodRemap.TaggedCopy | src/common/utility/palette.cpp:441-444 | every entry of the sort copy keeps the colour of the palette entry at the same index; with zero high bytes, its high byte is that index |
| GoodRemap.FindCopyOfZero | src/common/utility/palette.cpp:423-430 | the result is 0 exactly when no index in 1..255 holds the full 32-bit word of entry 0; otherwise it is the lowest such index |
| GoodRemap.TopDuplicate | src/common/utility/palette.cpp:446-449 | the downward scan finds the highest adjacent pair of equal colour, or reports that there is none |
| GoodRemap.AdjacentEqual | src/common/utility/palette.cpp:446-448 | in a colour-sorted list, two positions of equal colour imply an equal adjacent pair at the upper one |
| GoodRemap.NoAdjacentNoDuplicate | src/common/utility/palette.cpp:445-462 | if the scan finds no adjacent pair, the palette has no duplicate colour |
| GoodRemap.PairInBase | src/common/utility/palette.cpp:448-451 | the adjacent pair found stands for two different palette indices of the same colour |
| GoodRemap.TopPair | src/common/utility/palette.cpp:445-449 | with zero high bytes, no duplicated colour is above the pair found |
| GoodRemap.ApplyPair | src/common/utility/palette.cpp:450-459 | the lower index of the pair becomes colour 0; index 0 maps to it, and it maps to the higher index |
| GoodRemap.RemapThroughDuplicate | src/common/utility/palette.cpp:437-463 | without duplicates nothing changes; with zero high bytes, every index is redirected to an entry showing its old colour; when in addition a duplicate colour exists, no index maps to 0 |
| GoodRemap.MakeGoodRemap | src/common/utility/palette.cpp:416-468 | at most one palette entry and one table entry besides index 0 change; an exact copy of entry 0 is used when one exists; without duplicates nothing changes; with zero high bytes, every index keeps its colour through the table; when in addition a duplicate colour exists, none maps to 0 |

## Left out

- The HSV conversion functions (`RGBtoHSV`, `HSVtoRGB`) work in floating point and are not part of the core modelled here.
- `src/textures/skyboxtexture.cpp` is not part of this model.
- PerceptualColor.PtmBestColor: the table values `pow(x / 255, gamma)` are not computed. The table builder is a parameter, and the table only has to hold 256 non-negative reals. NaN and infinity are not modelled, including a NaN gamma, which compares unequal to itself and rebuilds the table on every call.
- PerceptualColor.SelectBest: costs are exact real sums. The source adds three `double`s (`fdist = x + y + z`) with IEEE rounding, and that addition is not associative. So ties and near-ties can resolve differently from the source's double arithmetic.
- PerceptualColor.PtmBestColor: the same exact-real costs as `SelectBest`, with the same consequence for ties and near-ties.
- PerceptualColor.PtmBestColor: r, g and b have the type `byte`. The source indexes the cost table with `abs(r - pal.r)`, so a value outside 0..255 can read outside the 256-entry table. The routine has no caller in the file.
- NearestColor.BestColor: r, g and b have the type `byte`. The source accepts any `int`. For other values it still runs, and it returns `first` whenever every distance reaches the initial bound 3·257²; this is the case `DistBelowStart` rules out for bytes. The only caller in the file, `MakeRemap`, passes `RPART`, `GPART` and `BPART` of a colour, which are bytes.
- Blending.DoBlending: pointer aliasing is reduced to a flag: `from == to` is sequence equality. `memcpy`, buffer alignment, and the aligned/unaligned loop variants (which are identical lane by lane) are not modelled.
- Blending.DoBlendingSse2: only the 64-bit `_mm_set_epi64x` set-up is modelled. The 32-bit `_mm_set_epi32` variant builds the same lanes.
- Blending.DoBlending: the SSE2 and scalar paths agree on r, g and b but not on the high byte. The vector path stores 0 there and the scalar loop keeps the destination's byte. The contract states both facts and does not claim full equality.
- Blending.DoBlending: `count` is a natural and r, g, b are bytes, with a in 0..256. The source takes plain `int`s; a negative count or an out-of-range channel is not modelled.
- Sorting.Sort: `qsort` itself is replaced by an insertion sort. Only its contract is used.
- Remap.MakeRemap: the exact-colour guarantee for a colour held by the base palette only at index 255 needs `SoleColor`. If two useful foreign entries share such a colour, `sortforremap2` places both foreign items before the base item of that colour, so only the last of them is directly followed by the base item and matched. The others are followed by a foreign item, stay pending and fall back to `BestColor` over 1..254.
- GoodRemap.MakeGoodRemap: the colour-preservation, top-pair and no-zero-target properties are stated only when every high byte is zero (`AlphaZero`). Otherwise `BaseColors[i] | (i << 24)` mixes the stored high byte into the tag, and the tag no longer names the index.
- File I/O, palette loading and the callers of these routines are outside the core and are not modelled.

=== FILE: bestcolor.dfy ===
/** `BestColor`: linear nearest-colour search by squared RGB distance. */
module NearestColor {
  import opened Colors

  /** Squared Euclidean distance between an entry's colour and (r, g, b). */
  function Dist(e: PalEntry, r: int, g: int, b: int): nat {
    (r - e.r) * (r - e.r) + (g - e.g) * (g - e.g) + (b - e.b) * (b - e.b)
  }

  /** `c` is the lowest index of minimum distance among `pal[first..num)`. */
  ghost predicate IsBest(pal: seq<PalEntry>, r: int, g: int, b: int, first: nat, num: nat, c: int)
    requires num <= |pal|
  {
    && first <= c < num
    && (forall j :: first <= j < num ==> Dist(pal[c], r, g, b) <= Dist(pal[j], r, g, b))
    && (forall j :: first <= j < c ==> Dist(pal[c], r, g, b) < Dist(pal[j], r, g, b))
  }

  /** Distance zero means the very same colour. */
  lemma DistZero(e: PalEntry, r: byte, g: byte, b: byte)
    ensures Dist(e, r, g, b) == 0 <==> (e.r == r && e.g == g && e.b == b)
  {
    SquarePositive(r - e.r);
    SquarePositive(g - e.g);
    SquarePositive(b - e.b);
  }

  lemma SquarePositive(d: int)
    ensures d * d >= 0
    ensures d != 0 ==> d * d > 0
  {
    if d > 0 {
      MulLe(1, d, d);
    } else if d < 0 {
      MulLe(1, -d, -d);
    }
  }

  /** Within the byte range no distance reaches the scan's initial bound 3 * 257^2. */
  lemma DistBelowStart(e: PalEntry, r: byte, g: byte, b: byte)
    ensures Dist(e, r, g, b) <= 3 * 255 * 255 < 257 * 257 + 257 * 257 + 257 * 257
  {
    assert (r - e.r) * (r - e.r) <= 255 * 255 by { SquareBound(r - e.r); }
    assert (g - e.g) * (g - e.g) <= 255 * 255 by { SquareBound(g - e.g); }
    assert (b - e.b) * (b - e.b) <= 255 * 255 by { SquareBound(b - e.b); }
  }

  lemma SquareBound(d: int)
    requires -255 <= d <= 255
    ensures d * d <= 255 * 255
  {
    var e := if d < 0 then -d else d;
    assert d * d == e * e;
    MulLe(e, 255, e);
    MulLe(e, 255, 255);
  }

  /** The scan of palette.cpp: strict `<` keeps the earliest best, an exact
      match returns at once, and an empty range returns `first`. */
  method BestColor(pal: seq<PalEntry>, r: byte, g: byte, b: byte, first: nat, num: nat) returns (best: nat)
    requires num <= |pal|
    ensures num <= first ==> best == first
    ensures first < num ==> IsBest(pal, r, g, b, first, num, best)
  {
    best := first;
    var bestdist := 257 * 257 + 257 * 257 + 257 * 257;
    var color := first;
    while color < num
      invariant first <= color && (color <= num || color == first)
      invariant first <= best && (color > first ==> best < color)
      invariant color == first ==> best == first && bestdist == 257 * 257 + 257 * 257 + 257 * 257
      invariant color > first ==> bestdist == Dist(pal[best], r, g, b) && bestdist > 0
      invariant forall j :: first <= j < color ==> bestdist <= Dist(pal[j], r, g, b)
      invariant forall j :: first <= j < best ==> bestdist < Dist(pal[j], r, g, b)
    {
      var dist := Dist(pal[color], r, g, b);
      DistBelowStart(pal[color], r, g, b);
      if dist < bestdist {
        if dist == 0 {
          return color;
        }
        bestdist := dist;
        best := color;
      }
      color := color + 1;
    }
  }

  /** At most one index satisfies `IsBest`: the search result is determined. */
  lemma BestIsUnique(pal: seq<PalEntry>, r: int, g: int, b: int, first: nat, num: nat, c1: int, c2: int)
    requires num <= |pal|
    requires IsBest(pal, r, g, b, first, num, c1) && IsBest(pal, r, g, b, first, num, c2)
    ensures c1 == c2
  {
    assert Dist(pal[c1], r, g, b) == Dist(pal[c2], r, g, b);
  }

  /** When the range holds the exact colour, the best index is the lowest
      exactly matching one. */
  lemma BestIsFirstExact(pal: seq<PalEntry>, r: byte, g: byte, b: byte, first: nat, num: nat, c: int, j: int)
    requires num <= |pal|
    requires IsBest(pal, r, g, b, first, num, c)
    requires first <= j < num && pal[j].r == r && pal[j].g == g && pal[j].b == b
    ensures pal[c].r == r && pal[c].g == g && pal[c].b == b
    ensures c <= j
    ensures forall i :: first <= i < c ==> !(pal[i].r == r && pal[i].g == g && pal[i].b == b)
  {
    DistZero(pal[j], r, g, b);
    DistZero(pal[c], r, g, b);
    forall i | first <= i < c
      ensures !(pal[i].r == r && pal[i].g == g && pal[i].b == b)
    {
      DistZero(pal[i], r, g, b);
    }
  }

  /** The squared distances (d, d + 2, d - 1) of a grey from (128, 130, 127)
      total at least 5, and more than 5 below grey 128. */
  lemma GreyDistance(d: int)
    ensures d * d + (d + 2) * (d + 2) + (d - 1) * (d - 1) >= 5
    ensures d > 0 ==> d * d + (d + 2) * (d + 2) + (d - 1) * (d - 1) > 5
  {
    assert d * d + (d + 2) * (d + 2) + (d - 1) * (d - 1) == 3 * (d * d) + 2 * d + 5;
    SquarePositive(d);
    if d < 0 {
      MulLe(1, -d, -d);
    } else if d > 0 {
      MulLe(1, d, d);
    }
  }

  /** The grey ramp 0..255. */
  function GreyRamp(): (pal: seq<PalEntry>)
    ensures |pal| == 256
    ensures forall i :: 0 <= i < 256 ==> pal[i] == PalEntry(i, i, i, 0)
  {
    seq(256, i requires 0 <= i < 256 => PalEntry(i, i, i, 0))
  }

  /** On the grey ramp, (128, 130, 127) is nearest to grey 128. */
  lemma GreyRampNearest()
    ensures IsBest(GreyRamp(), 128, 130, 127, 0, 256, 128)
  {
    var pal := GreyRamp();
    assert Dist(pal[128], 128, 130, 127) == 5;
    forall j | 0 <= j < 256
      ensures Dist(pal[j], 128, 130, 127) >= 5
      ensures j < 128 ==> Dist(pal[j], 128, 130, 127) > 5
    {
      GreyDistance(128 - j);
    }
  }
}

=== FILE: blending.dfy ===
/** `DoBlending`: blends a run of pixels towards a solid colour by the
    weight `a` in [0, 256], with a four-pixel SSE2 path and a scalar loop
    for the rest. Pixel buffers are sequences; the destination buffer is
    returned instead of written in place. SSE2 registers are modelled as
    eight 16-bit lanes held in naturals, each intrinsic by its lane rule. */
module Blending {
  import opened Colors

  /** One channel of the scalar loop: `(c*a + s*(256-a)) >> 8`, stored into a byte. */
  function BlendChannel(c: byte, s: byte, a: int): byte
    requires 0 < a < 256
  {
    ((c * a + s * (256 - a)) / 256) % 256
  }

  /** The blended channel lies between the source and the solid channel, so
      the store into a byte never truncates. */
  lemma BlendChannelBetween(c: byte, s: byte, a: int)
    requires 0 < a < 256
    ensures BlendChannel(c, s, a) == (c * a + s * (256 - a)) / 256
    ensures (if c < s then c else s) <= BlendChannel(c, s, a) <= (if c < s then s else c)
  {
    var lo := if c < s then c else s;
    var hi := if c < s then s else c;
    MulLe(lo, c, a);
    MulLe(lo, s, 256 - a);
    MulLe(c, hi, a);
    MulLe(s, hi, 256 - a);
    assert lo * a + lo * (256 - a) == lo * 256;
    assert hi * a + hi * (256 - a) == hi * 256;
  }

  /** The pixel the scalar formula gives for source `s`: r, g, b blended, the
      destination's own high byte `keep` left as it was. */
  function ScalarPixel(s: PalEntry, keep: byte, r: byte, g: byte, b: byte, a: int): PalEntry
    requires 0 < a < 256
  {
    PalEntry(BlendChannel(b, s.b, a), BlendChannel(g, s.g, a), BlendChannel(r, s.r, a), keep)
  }

  // ---- 16-bit lane arithmetic of the SSE2 intrinsics ----

  type Lane = x: nat | x <= 0xFFFF
  type Vec = v: seq<Lane> | |v| == 8 witness [0, 0, 0, 0, 0, 0, 0, 0]

  /** `_mm_mullo_epi16`: the low 16 bits of the product. */
  function MulLo(x: Lane, y: Lane): Lane { (x * y) % 0x1_0000 }

  /** `_mm_adds_epu16`: unsigned add, saturating at 0xFFFF. */
  function AddsU16(x: Lane, y: Lane): Lane { if x + y > 0xFFFF then 0xFFFF else x + y }

  /** `_mm_subs_epu16`: unsigned subtract, saturating at 0. */
  function SubsU16(x: Lane, y: Lane): Lane { if x < y then 0 else x - y }

  /** `_mm_srli_epi16(x, 8)`. */
  function Srli8(x: Lane): Lane { x / 0x100 }

  /** One lane of `_mm_packus_epi16`: the lane read as a signed 16-bit
      value and clamped to [0, 255]. */
  function PackUsLane(x: Lane): byte {
    if x >= 0x8000 then 0 else if x > 0xFF then 0xFF else x
  }

  function VMulLo(x: Vec, y: Vec): Vec { seq(8, i requires 0 <= i < 8 => MulLo(x[i], y[i])) }
  function VAddsU16(x: Vec, y: Vec): Vec { seq(8, i requires 0 <= i < 8 => AddsU16(x[i], y[i])) }
  function VSubsU16(x: Vec, y: Vec): Vec { seq(8, i requires 0 <= i < 8 => SubsU16(x[i], y[i])) }
  function VSrli8(x: Vec): Vec { seq(8, i requires 0 <= i < 8 => Srli8(x[i])) }

  /** `_mm_set_epi64x(c, c)` with c = l3<<48 | l2<<32 | l1<<16 | l0: the four
      lanes twice, lowest lane first. The 32-bit build's `_mm_set_epi32`
      calls produce the same lanes. */
  function Set4x2(l0: Lane, l1: Lane, l2: Lane, l3: Lane): Vec { [l0, l1, l2, l3, l0, l1, l2, l3] }

  /** Byte `k` of a pixel in memory order. */
  function ByteOf(e: PalEntry, k: nat): byte
    requires k < 4
  {
    if k == 0 then e.b else if k == 1 then e.g else if k == 2 then e.r else e.a
  }

  /** The memory image of a run of pixels. */
  function ToBytes(ps: seq<PalEntry>): (bs: seq<byte>)
    ensures |bs| == 4 * |ps|
  {
    seq(4 * |ps|, i requires 0 <= i < 4 * |ps| => ByteOf(ps[i / 4], i % 4))
  }

  /** The pixels a memory image holds. */
  function FromBytes(bs: seq<byte>): (ps: seq<PalEntry>)
    requires |bs| % 4 == 0
    ensures |ps| == |bs| / 4
  {
    seq(|bs| / 4, i requires 0 <= i < |bs| / 4 => PalEntry(bs[4 * i], bs[4 * i + 1], bs[4 * i + 2], bs[4 * i + 3]))
  }

  /** `_mm_unpacklo_epi8(v, zero)`: the low eight bytes, zero-extended to lanes. */
  function UnpackLo(bs: seq<byte>): Vec
    requires |bs| == 16
  {
    seq(8, i requires 0 <= i < 8 => bs[i])
  }

  /** `_mm_unpackhi_epi8(v, zero)`: the high eight bytes, zero-extended to lanes. */
  function UnpackHi(bs: seq<byte>): Vec
    requires |bs| == 16
  {
    seq(8, i requires 0 <= i < 8 => bs[8 + i])
  }

  /** `_mm_packus_epi16(x, y)`: the lanes of `x` then of `y`, each clamped to a byte. */
  function PackUs(x: Vec, y: Vec): (bs: seq<byte>)
    ensures |bs| == 16
  {
    seq(16, i requires 0 <= i < 16 => if i < 8 then PackUsLane(x[i]) else PackUsLane(y[i - 8]))
  }

  /** The premultiplied solid colour register: (b*a, g*a, r*a, 0) per pixel. */
  function BlendColorVec(r: byte, g: byte, b: byte, a: int): Vec
    requires 0 < a < 256
  {
    VMulLo(Set4x2(b, g, r, 0), Set4x2(a, a, a, 0))
  }

  /** The "one minus alpha" register: 256 - a in the colour lanes and 0 in
      the high-byte lane, because that lane of `blending256` is 0. */
  function BlendAlphaVec(a: int): Vec
    requires 0 < a < 256
  {
    VSubsU16(Set4x2(0x100, 0x100, 0x100, 0), Set4x2(a, a, a, 0))
  }

  /** One vector step: two pixels per register, multiply, saturating add, shift. */
  function BlendHalf(src: Vec, r: byte, g: byte, b: byte, a: int): Vec
    requires 0 < a < 256
  {
    VSrli8(VAddsU16(BlendColorVec(r, g, b, a), VMulLo(BlendAlphaVec(a), src)))
  }

  /** One iteration of the SSE2 loop on four pixels. */
  function SseBlock(src: seq<PalEntry>, r: byte, g: byte, b: byte, a: int): (out: seq<PalEntry>)
    requires |src| == 4 && 0 < a < 256
    ensures |out| == 4
  {
    var bytes := ToBytes(src);
    FromBytes(PackUs(BlendHalf(UnpackLo(bytes), r, g, b, a), BlendHalf(UnpackHi(bytes), r, g, b, a)))
  }

  /** In a colour lane neither the products, nor their sum, nor the shifted
      result saturates: the sum is at most 255 * 256 = 65280, and the lane
      equals the scalar formula. */
  lemma ColourLaneExact(c: byte, s: byte, a: int)
    requires 0 < a < 256
    ensures MulLo(c, a) == c * a
    ensures MulLo(SubsU16(0x100, a), s) == (256 - a) * s
    ensures c * a + (256 - a) * s <= 65280
    ensures AddsU16(MulLo(c, a), MulLo(SubsU16(0x100, a), s)) == c * a + (256 - a) * s
    ensures Srli8(c * a + (256 - a) * s) <= 0xFF
    ensures PackUsLane(Srli8(AddsU16(MulLo(c, a), MulLo(SubsU16(0x100, a), s)))) == BlendChannel(c, s, a)
  {
    var p := c * a;
    var q := (256 - a) * s;
    MulLe(c, 255, a);
    MulLe(s, 255, 256 - a);
    assert q == s * (256 - a);
    assert 0 <= p <= 255 * a && 0 <= q <= 255 * (256 - a);
    assert p % 0x1_0000 == p;
    assert q % 0x1_0000 == q;
    assert SubsU16(0x100, a) == 256 - a;
    assert p + q <= 65280;
    BlendChannelBetween(c, s, a);
    assert (p + q) / 256 <= 255;
  }

  /** In the high-byte lanes (3 and 7) both constant registers hold 0, so a
      vector step leaves 0 there whatever the source pixel's high byte. */
  lemma HighLaneZero(src: Vec, r: byte, g: byte, b: byte, a: int)
    requires 0 < a < 256
    ensures BlendColorVec(r, g, b, a)[3] == 0 && BlendColorVec(r, g, b, a)[7] == 0
    ensures BlendAlphaVec(a)[3] == 0 && BlendAlphaVec(a)[7] == 0
    ensures BlendHalf(src, r, g, b, a)[3] == 0 && BlendHalf(src, r, g, b, a)[7] == 0
  {
    var bc, ba := BlendColorVec(r, g, b, a), BlendAlphaVec(a);
    assert bc[3] == MulLo(0, 0) && bc[7] == MulLo(0, 0);
    assert ba[3] == SubsU16(0, 0) && ba[7] == SubsU16(0, 0);
  }

  /** What the scalar formula puts in byte `ch` of a pixel whose source byte is `s`;
      the high byte (ch == 3) is 0. */
  function LaneResult(ch: int, s: byte, r: byte, g: byte, b: byte, a: int): byte
    requires 0 < a < 256
  {
    if ch == 0 then BlendChannel(b, s, a)
    else if ch == 1 then BlendChannel(g, s, a)
    else if ch == 2 then BlendChannel(r, s, a)
    else 0
  }

  /** Lane `base + ch` of one vector step equals the scalar formula for byte `ch`. */
  lemma BlendHalfLane(src: Vec, r: byte, g: byte, b: byte, a: int, base: int, ch: int)
    requires 0 < a < 256 && (base == 0 || base == 4) && 0 <= ch < 4
    requires src[base + ch] <= 0xFF
    ensures PackUsLane(BlendHalf(src, r, g, b, a)[base + ch]) == LaneResult(ch, src[base + ch], r, g, b, a)
  {
    var i := base + ch;
    var bc := BlendColorVec(r, g, b, a);
    var ba := BlendAlphaVec(a);
    assert BlendHalf(src, r, g, b, a)[i] == Srli8(AddsU16(bc[i], MulLo(ba[i], src[i])));
    if ch == 3 {
      HighLaneZero(src, r, g, b, a);
    } else {
      var c := if ch == 0 then b else if ch == 1 then g else r;
      assert bc[i] == MulLo(c, a) && ba[i] == SubsU16(0x100, a);
      ColourLaneExact(c, src[i], a);
    }
  }

  lemma ToBytesAt(ps: seq<PalEntry>, k: int)
    requires 0 <= k < |ps|
    ensures ToBytes(ps)[4 * k] == ps[k].b && ToBytes(ps)[4 * k + 1] == ps[k].g
    ensures ToBytes(ps)[4 * k + 2] == ps[k].r && ToBytes(ps)[4 * k + 3] == ps[k].a
  {
    assert (4 * k) / 4 == k && (4 * k + 1) / 4 == k && (4 * k + 2) / 4 == k && (4 * k + 3) / 4 == k;
    assert (4 * k) % 4 == 0 && (4 * k + 1) % 4 == 1 && (4 * k + 2) % 4 == 2 && (4 * k + 3) % 4 == 3;
  }

  /** `_mm_unpacklo_epi8` holds pixels 0 and 1, `_mm_unpackhi_epi8` pixels 2 and 3:
      pixel `k` occupies lanes `base..base+3` of its register, base = 4 * (k % 2). */
  lemma UnpackedPixel(src: seq<PalEntry>, k: int, base: int)
    requires |src| == 4 && 0 <= k < 4 && base == 4 * (k % 2)
    ensures k < 2 ==>
              var v := UnpackLo(ToBytes(src));
              v[base] == src[k].b && v[base + 1] == src[k].g && v[base + 2] == src[k].r && v[base + 3] == src[k].a
    ensures k >= 2 ==>
              var v := UnpackHi(ToBytes(src));
              v[base] == src[k].b && v[base + 1] == src[k].g && v[base + 2] == src[k].r && v[base + 3] == src[k].a
  {
    var bytes := ToBytes(src);
    ToBytesAt(src, k);
    if k < 2 {
      assert UnpackLo(bytes) == bytes[..8];
    } else {
      assert UnpackHi(bytes) == bytes[8..];
    }
  }

  /** `_mm_packus_epi16(x, y)` stores pixels 0 and 1 from `x` and pixels 2 and 3 from `y`. */
  lemma PackedPixel(x: Vec, y: Vec, k: int, base: int)
    requires 0 <= k < 4 && base == 4 * (k % 2)
    ensures k < 2 ==>
              FromBytes(PackUs(x, y))[k]
              == PalEntry(PackUsLane(x[base]), PackUsLane(x[base + 1]), PackUsLane(x[base + 2]), PackUsLane(x[base + 3]))
    ensures k >= 2 ==>
              FromBytes(PackUs(x, y))[k]
              == PalEntry(PackUsLane(y[base]), PackUsLane(y[base + 1]), PackUsLane(y[base + 2]), PackUsLane(y[base + 3]))
  {
    var packed := PackUs(x, y);
    assert FromBytes(packed)[k] == PalEntry(packed[4 * k], packed[4 * k + 1], packed[4 * k + 2], packed[4 * k + 3]);
  }

  /** Four lanes of one vector step holding the bytes of pixel `s` give the scalar pixel. */
  lemma PixelFromHalf(half: Vec, s: PalEntry, base: int, r: byte, g: byte, b: byte, a: int)
    requires 0 < a < 256 && (base == 0 || base == 4)
    requires half[base] == s.b && half[base + 1] == s.g && half[base + 2] == s.r && half[base + 3] == s.a
    ensures var v := BlendHalf(half, r, g, b, a);
      PalEntry(PackUsLane(v[base]), PackUsLane(v[base + 1]), PackUsLane(v[base + 2]), PackUsLane(v[base + 3]))
      == ScalarPixel(s, 0, r, g, b, a)
  {
    BlendHalfLane(half, r, g, b, a, base, 0);
    BlendHalfLane(half, r, g, b, a, base, 1);
    BlendHalfLane(half, r, g, b, a, base, 2);
    BlendHalfLane(half, r, g, b, a, base, 3);
  }

  /** The unpacked register that holds pixel `k` of a four-pixel group. */
  function HalfOf(src: seq<PalEntry>, k: int): Vec
    requires |src| == 4
  {
    if k < 2 then UnpackLo(ToBytes(src)) else UnpackHi(ToBytes(src))
  }

  /** Pixel `k` of a vector step is read from lanes `base..base+3` of the
      blended register that holds it. */
  lemma SseBlockLanes(src: seq<PalEntry>, r: byte, g: byte, b: byte, a: int, k: int, base: int)
    requires |src| == 4 && 0 < a < 256 && 0 <= k < 4 && base == 4 * (k % 2)
    ensures var v := BlendHalf(HalfOf(src, k), r, g, b, a);
      SseBlock(src, r, g, b, a)[k]
      == PalEntry(PackUsLane(v[base]), PackUsLane(v[base + 1]), PackUsLane(v[base + 2]), PackUsLane(v[base + 3]))
  {
    var bytes := ToBytes(src);
    var x := BlendHalf(UnpackLo(bytes), r, g, b, a);
    var y := BlendHalf(UnpackHi(bytes), r, g, b, a);
    assert SseBlock(src, r, g, b, a) == FromBytes(PackUs(x, y));
    PackedPixel(x, y, k, base);
  }

  /** Pixel `k` of a vector step gets the scalar formula's colour and a zero high byte. */
  lemma SseBlockPixel(src: seq<PalEntry>, r: byte, g: byte, b: byte, a: int, k: int)
    requires |src| == 4 && 0 < a < 256 && 0 <= k < 4
    ensures SseBlock(src, r, g, b, a)[k] == ScalarPixel(src[k], 0, r, g, b, a)
  {
    var base := if k == 0 || k == 2 then 0 else 4;
    assert base == 4 * (k % 2);
    SseBlockLanes(src, r, g, b, a, k, base);
    UnpackedPixel(src, k, base);
    PixelFromHalf(HalfOf(src, k), src[k], base, r, g, b, a);
  }

  /** The vector step gives each of its four pixels the scalar formula's
      colour and a zero high byte. */
  lemma SseBlockIsScalar(src: seq<PalEntry>, r: byte, g: byte, b: byte, a: int)
    requires |src| == 4 && 0 < a < 256
    ensures forall k :: 0 <= k < 4 ==> SseBlock(src, r, g, b, a)[k] == ScalarPixel(src[k], 0, r, g, b, a)
  {
    forall k | 0 <= k < 4
      ensures SseBlock(src, r, g, b, a)[k] == ScalarPixel(src[k], 0, r, g, b, a)
    {
      SseBlockPixel(src, r, g, b, a, k);
    }
  }

  /** `count & ~3` and `count & 3` split a 32-bit count into a multiple of
      four and a remainder below four. */
  lemma DispatchMasks(count: bv32)
    ensures (count & !3) + (count & 3) == count
    ensures count & 3 == count % 4
    ensures count & !3 == count / 4 * 4
  {
  }

  /** One iteration of the vector loop extends the blended prefix by four pixels. */
  lemma SseStep(from: seq<PalEntry>, out: seq<PalEntry>, p: nat, r: byte, g: byte, b: byte, a: int)
    requires 0 < a < 256 && p + 4 <= |from| && p + 4 <= |out|
    requires forall i :: 0 <= i < p ==> out[i] == ScalarPixel(from[i], 0, r, g, b, a)
    ensures var next := out[..p] + SseBlock(from[p..p + 4], r, g, b, a) + out[p + 4..];
      && |next| == |out|
      && (forall i :: 0 <= i < p + 4 ==> next[i] == ScalarPixel(from[i], 0, r, g, b, a))
      && (forall i :: p + 4 <= i < |out| ==> next[i] == out[i])
  {
    var src := from[p..p + 4];
    var block := SseBlock(src, r, g, b, a);
    var next := out[..p] + block + out[p + 4..];
    SseBlockIsScalar(src, r, g, b, a);
    forall i | 0 <= i < p + 4
      ensures next[i] == ScalarPixel(from[i], 0, r, g, b, a)
    {
      if p <= i {
        assert next[i] == block[i - p] && src[i - p] == from[i];
      } else {
        assert next[i] == out[i];
      }
    }
    forall i | p + 4 <= i < |out|
      ensures next[i] == out[i]
    {
    }
  }

  /** `DoBlending_SSE2`: blends `count / 4` groups of four pixels. */
  method DoBlendingSse2(from: seq<PalEntry>, to: seq<PalEntry>, count: nat, r: byte, g: byte, b: byte, a: int)
    returns (out: seq<PalEntry>)
    requires 0 < a < 256 && count <= |from| && count <= |to|
    ensures |out| == |to|
    ensures forall i :: 0 <= i < count / 4 * 4 ==> out[i] == ScalarPixel(from[i], 0, r, g, b, a)
    ensures forall i :: count / 4 * 4 <= i < |to| ==> out[i] == to[i]
  {
    out := to;
    var n := count / 4;
    var p := 0;
    while n > 0
      invariant 0 <= n <= count / 4 && p + 4 * n == count / 4 * 4
      invariant |out| == |to|
      invariant forall i :: 0 <= i < p ==> out[i] == ScalarPixel(from[i], 0, r, g, b, a)
      invariant forall i :: p <= i < |to| ==> out[i] == to[i]
    {
      SseStep(from, out, p, r, g, b, a);
      out := out[..p] + SseBlock(from[p..p + 4], r, g, b, a) + out[p + 4..];
      p := p + 4;
      n := n - 1;
    }
  }

  /** How many leading pixels the vector path handles. */
  function VectorPrefix(count: nat, sse2: bool): (n: nat)
    ensures n <= count && n % 4 == 0
    ensures n > 0 <==> sse2 && count >= 4
    ensures n > 0 ==> count - n < 4
  {
    if sse2 && count >= 4 then count - count % 4 else 0
  }

  /** The reference the two paths are measured against: every pixel of the
      run blended by the scalar formula, high bytes kept. */
  function ScalarBlend(from: seq<PalEntry>, to: seq<PalEntry>, count: nat, r: byte, g: byte, b: byte, a: int): (out: seq<PalEntry>)
    requires count <= |from| && count <= |to| && 0 < a < 256
    ensures |out| == |to|
  {
    seq(|to|, i requires 0 <= i < |to| => if i < count then ScalarPixel(from[i], to[i].a, r, g, b, a) else to[i])
  }

  /** `DoBlending`. `sse2` says whether the build has the x86 vector path.
      a == 0 copies the source (nothing changes when source and destination
      coincide); a == 256 fills with the solid colour `MAKERGB(r, g, b)`;
      otherwise r, g and b follow the scalar formula on every pixel, and the
      high byte is zeroed on the vector prefix and kept on the scalar tail. */
  method DoBlending(from: seq<PalEntry>, to: seq<PalEntry>, count: nat, r: byte, g: byte, b: byte, a: int, sse2: bool)
    returns (out: seq<PalEntry>)
    requires count <= |from| && count <= |to| && 0 <= a <= 256
    ensures |out| == |to|
    ensures forall i :: count <= i < |to| ==> out[i] == to[i]
    ensures a == 0 ==> forall i :: 0 <= i < count ==> out[i] == from[i]
    ensures a == 0 && from == to ==> out == to
    ensures a == 256 ==> forall i :: 0 <= i < count ==> out[i] == PalEntry(b, g, r, 0)
    ensures 0 < a < 256 ==> forall i :: 0 <= i < count ==>
              out[i] == ScalarPixel(from[i], if i < VectorPrefix(count, sse2) then 0 else to[i].a, r, g, b, a)
    ensures 0 < a < 256 && !sse2 ==> out == ScalarBlend(from, to, count, r, g, b, a)
    ensures 0 < a < 256 ==> forall i :: 0 <= i < |to| ==> Rgb24(out[i]) == Rgb24(ScalarBlend(from, to, count, r, g, b, a)[i])
  {
    if a == 0 {
      if from != to {
        out := from[..count] + to[count..];
      } else {
        out := to;
      }
      return;
    } else if a == 256 {
      var t := Unpack(MakeRgb(r, g, b));
      out := to;
      for i := 0 to count
        invariant |out| == |to|
        invariant forall j :: 0 <= j < i ==> out[j] == t
        invariant forall j :: i <= j < |to| ==> out[j] == to[j]
      {
        out := out[i := t];
      }
      return;
    }
    out := to;
    var start := 0;
    if sse2 && count >= 4 {
      var not3count := count - count % 4;
      out := DoBlendingSse2(from, to, not3count, r, g, b, a);
      assert not3count / 4 * 4 == not3count;
      start := not3count;
    }
    for i := start to count
      invariant |out| == |to|
      invariant forall j :: 0 <= j < i ==>
                  out[j] == ScalarPixel(from[j], if j < VectorPrefix(count, sse2) then 0 else to[j].a, r, g, b, a)
      invariant forall j :: i <= j < |to| ==> out[j] == to[j]
    {
      out := out[i := ScalarPixel(from[i], out[i].a, r, g, b, a)];
    }
  }
}

=== FILE: colors.dfy ===
/** Palette entries: the packed 32-bit colour word and its named channels.

    A palette entry is stored as one 32-bit word in little-endian order
    b, g, r, a, so that the packed value is a<<24 | r<<16 | g<<8 | b.
    The matching algorithms look only at the low 24 bits (the colour);
    the high byte is an opaque payload. */
module Colors {

  type byte = x: int | 0 <= x < 0x100
  type uint32 = x: int | 0 <= x < 0x1_0000_0000

  /** One palette entry, fields in memory order. */
  datatype PalEntry = PalEntry(b: byte, g: byte, r: byte, a: byte)

  /** Division by a positive `k` recovers quotient and remainder. */
  lemma DivMod(x: int, q: int, r: int, k: int)
    requires k > 0 && 0 <= r < k && x == q * k + r
    ensures x / k == q && x % k == r
  {
    var q', r' := x / k, x % k;
    assert (q' - q) * k == r - r';
    MulSign(q' - q, k);
  }

  /** A non-zero multiple of a positive `k` is at least `k` away from zero. */
  lemma MulSign(d: int, k: int)
    requires k > 0
    ensures d > 0 ==> d * k >= k
    ensures d < 0 ==> d * k <= -k
  {
    if d > 0 {
      MulLe(1, d, k);
    } else if d < 0 {
      MulLe(1, -d, k);
    }
  }

  /** The packed 32-bit word of an entry. */
  function Pack(e: PalEntry): (u: uint32)
    ensures u / 0x100_0000 == e.a
    ensures u % 0x100 == e.b
  {
    DivMod(e.a * 0x100_0000 + e.r * 0x1_0000 + e.g * 0x100 + e.b, e.a, e.r * 0x1_0000 + e.g * 0x100 + e.b, 0x100_0000);
    DivMod(e.a * 0x100_0000 + e.r * 0x1_0000 + e.g * 0x100 + e.b, e.a * 0x1_0000 + e.r * 0x100 + e.g, e.b, 0x100);
    e.a * 0x100_0000 + e.r * 0x1_0000 + e.g * 0x100 + e.b
  }

  /** The entry a packed word denotes. */
  function Unpack(u: uint32): PalEntry {
    PalEntry(u % 0x100, (u / 0x100) % 0x100, (u / 0x1_0000) % 0x100, u / 0x100_0000)
  }

  lemma UnpackPack(e: PalEntry)
    ensures Unpack(Pack(e)) == e
  {
    var u := Pack(e);
    DivMod(u, e.a * 0x1_0000 + e.r * 0x100 + e.g, e.b, 0x100);
    DivMod(u, e.a * 0x100 + e.r, e.g * 0x100 + e.b, 0x1_0000);
    DivMod(u / 0x100, e.a * 0x100 + e.r, e.g, 0x100);
    DivMod(u / 0x1_0000, e.a, e.r, 0x100);
  }

  lemma PackUnpack(u: uint32)
    ensures Pack(Unpack(u)) == u
  {
    var e := Unpack(u);
    DivMod(u, u / 0x100, u % 0x100, 0x100);
    DivMod(u / 0x100, u / 0x1_0000, (u / 0x100) % 0x100, 0x100);
    DivMod(u / 0x1_0000, u / 0x100_0000, (u / 0x1_0000) % 0x100, 0x100);
  }

  /** The colour of an entry: the low 24 bits of its packed word (`& 0xFFFFFF`). */
  function Rgb24(e: PalEntry): (c: nat)
    ensures c < 0x100_0000
    ensures c == e.r * 0x1_0000 + e.g * 0x100 + e.b
  {
    Pack(e) % 0x100_0000
  }

  /** `RPART`, `GPART`, `BPART` of a packed colour. */
  function RPart(c: nat): byte { (c / 0x1_0000) % 0x100 }
  function GPart(c: nat): byte { (c / 0x100) % 0x100 }
  function BPart(c: nat): byte { c % 0x100 }

  /** The channel parts of an entry's colour are the entry's own channels. */
  lemma PartsOfRgb24(e: PalEntry)
    ensures RPart(Rgb24(e)) == e.r
    ensures GPart(Rgb24(e)) == e.g
    ensures BPart(Rgb24(e)) == e.b
  {
    var c := Rgb24(e);
    assert c / 0x100 == e.r * 0x100 + e.g;
    assert c / 0x1_0000 == e.r;
  }

  /** Two entries have the same colour exactly when their r, g and b agree. */
  lemma Rgb24Injective(x: PalEntry, y: PalEntry)
    ensures Rgb24(x) == Rgb24(y) <==> (x.r == y.r && x.g == y.g && x.b == y.b)
  {
    if Rgb24(x) == Rgb24(y) {
      PartsOfRgb24(x);
      PartsOfRgb24(y);
    }
  }

  /** Entries whose high byte is zero are equal exactly when their colours are. */
  lemma SameColorSameEntry(x: PalEntry, y: PalEntry)
    requires x.a == 0 && y.a == 0
    ensures x == y <==> Rgb24(x) == Rgb24(y)
  {
    Rgb24Injective(x, y);
  }

  /** `MAKERGB(r, g, b)`: the packed word of a colour with a zero high byte. */
  function MakeRgb(r: byte, g: byte, b: byte): (u: uint32)
    ensures Unpack(u) == PalEntry(b, g, r, 0)
  {
    UnpackPack(PalEntry(b, g, r, 0));
    r * 0x1_0000 + g * 0x100 + b
  }

  /** A 32-bit unsigned value converted to a signed `int` (two's complement). */
  function ToInt32(u: uint32): (i: int)
    ensures -0x8000_0000 <= i < 0x8000_0000
    ensures i % 0x1_0000_0000 == u
  {
    if u < 0x8000_0000 then u else u - 0x1_0000_0000
  }

  /** The wrapped 32-bit difference of two 24-bit colours, read as a signed
      `int`, is their true difference. */
  lemma ColorDifference(c: nat, d: nat)
    requires c < 0x100_0000 && d < 0x100_0000
    ensures ToInt32((c - d) % 0x1_0000_0000) == c - d
  {
    if c < d {
      assert (c - d) % 0x1_0000_0000 == c - d + 0x1_0000_0000;
    }
  }

  /** Multiplying by a non-negative factor keeps order. */
  lemma MulLe(x: int, y: int, z: int)
    requires 0 <= x <= y && 0 <= z
    ensures x * z <= y * z
  {
    assert y * z == x * z + (y - x) * z;
  }
}

=== FILE: goodremap.dfy ===
/** `MakeGoodRemap`: frees palette index 0 (the transparent index) by
    finding another index that shows colour 0. An exact copy of entry 0 is
    used when there is one; otherwise the highest duplicated colour pair is
    found by sorting, the lower index of the pair is overwritten with colour
    0 and its pixels are sent to the other index of the pair. */
module GoodRemap {
  import opened Colors
  import Sorting

  /** `sortforremap`: the 32-bit difference of the low 24 bits, read as a signed int. */
  function SortForRemap(x: PalEntry, y: PalEntry): int {
    ToInt32((Rgb24(x) - Rgb24(y)) % 0x1_0000_0000)
  }

  /** The comparator orders by colour alone. */
  lemma SortForRemapSign(x: PalEntry, y: PalEntry)
    ensures SortForRemap(x, y) == Rgb24(x) - Rgb24(y)
  {
    ColorDifference(Rgb24(x), Rgb24(y));
  }

  predicate EntryLe(x: PalEntry, y: PalEntry) {
    SortForRemap(x, y) <= 0
  }

  lemma EntryLeIsTotalPreorder()
    ensures Sorting.Total(EntryLe) && Sorting.Transitive(EntryLe)
    ensures forall x, y :: EntryLe(x, y) <==> Rgb24(x) <= Rgb24(y)
  {
    forall x: PalEntry, y: PalEntry
      ensures EntryLe(x, y) <==> Rgb24(x) <= Rgb24(y)
    {
      SortForRemapSign(x, y);
    }
  }

  /** Bitwise OR of two naturals, bit by bit from the lowest. */
  function BitOr(x: nat, y: nat): nat
    decreases x + y
  {
    if x == 0 then y
    else if y == 0 then x
    else (if x % 2 == 1 || y % 2 == 1 then 1 else 0) + 2 * BitOr(x / 2, y / 2)
  }

  function Pow2(n: nat): (p: nat)
    ensures p >= 1
  {
    if n == 0 then 1 else 2 * Pow2(n - 1)
  }

  /** OR of two n-bit values is an n-bit value. */
  lemma {:induction false} BitOrBelow(x: nat, y: nat, n: nat)
    requires x < Pow2(n) && y < Pow2(n)
    ensures BitOr(x, y) < Pow2(n)
    decreases n
  {
    if x != 0 && y != 0 {
      assert n > 0;
      BitOrBelow(x / 2, y / 2, n - 1);
    }
  }

  /** `BaseColors[i] | (i << 24)`: the index ORed into the high byte. The
      shifted index has no bit in the low 24, so the model applies the OR to
      the `a` byte alone and the colour is kept by construction. */
  function Tagged(e: PalEntry, i: byte): (t: PalEntry)
    ensures t.r == e.r && t.g == e.g && t.b == e.b
    ensures e.a == 0 ==> t == e.(a := i)
  {
    assert Pow2(8) == 256;
    BitOrBelow(e.a, i, 8);
    e.(a := BitOr(e.a, i))
  }

  /** The sort copy of the palette. */
  function TaggedCopy(base: seq<PalEntry>): (sc: seq<PalEntry>)
    requires |base| == 256
    ensures |sc| == 256
    ensures forall i :: 0 <= i < 256 ==> Rgb24(sc[i]) == Rgb24(base[i])
    ensures AlphaZero(base) ==> forall i :: 0 <= i < 256 ==> sc[i] == base[i].(a := i)
  {
    seq(256, i requires 0 <= i < 256 => Tagged(base[i], i))
  }

  function Identity(): (id: seq<byte>)
    ensures |id| == 256 && forall i :: 0 <= i < 256 ==> id[i] == i
  {
    seq(256, i requires 0 <= i < 256 => i)
  }

  /** Every high byte is zero: the index tags then recover the index. */
  predicate AlphaZero(base: seq<PalEntry>) {
    forall i :: 0 <= i < |base| ==> base[i].a == 0
  }

  /** Two different indices show the same colour. */
  ghost predicate HasDuplicate(base: seq<PalEntry>) {
    exists i, j :: 0 <= i < j < |base| && Rgb24(base[i]) == Rgb24(base[j])
  }

  /** The first loop: the lowest index in 1..255 holding an exact (32-bit)
      copy of entry 0, or 0 when there is none. */
  method FindCopyOfZero(base: seq<PalEntry>) returns (idx: nat)
    requires |base| == 256
    ensures idx < 256
    ensures idx == 0 <==> forall j :: 1 <= j < 256 ==> base[j] != base[0]
    ensures idx != 0 ==> base[idx] == base[0] && forall j :: 1 <= j < idx ==> base[j] != base[0]
  {
    for i := 1 to 256
      invariant forall j :: 1 <= j < i ==> base[j] != base[0]
    {
      if base[i] == base[0] {
        return i;
      }
    }
    return 0;
  }

  /** The scan from the top of the sorted copy for the first adjacent pair of
      equal colour. */
  method TopDuplicate(s: seq<PalEntry>) returns (found: bool, i: nat)
    requires |s| == 256
    ensures found ==> 1 <= i <= 255 && Rgb24(s[i]) == Rgb24(s[i - 1])
    ensures found ==> forall p :: i < p <= 255 ==> Rgb24(s[p]) != Rgb24(s[p - 1])
    ensures !found ==> forall p :: 1 <= p <= 255 ==> Rgb24(s[p]) != Rgb24(s[p - 1])
  {
    i := 255;
    while i > 0
      invariant 0 <= i <= 255
      invariant forall p :: i < p <= 255 ==> Rgb24(s[p]) != Rgb24(s[p - 1])
    {
      if Rgb24(s[i]) == Rgb24(s[i - 1]) {
        return true, i;
      }
      i := i - 1;
    }
    return false, 0;
  }

  function Min(x: int, y: int): int { if x > y then y else x }
  function Max(x: int, y: int): int { if x > y then x else y }

  /** Apart from index 0 of the remap table, the palette and the table differ
      from the input and the identity only at index `d`. */
  predicate ChangedAtMost(base: seq<PalEntry>, newBase: seq<PalEntry>, remap: seq<byte>, d: int)
    requires |base| == 256 && |newBase| == 256 && |remap| == 256
  {
    && (forall i :: 0 <= i < 256 && i != d ==> newBase[i] == base[i])
    && (forall i :: 1 <= i < 256 && i != d ==> remap[i] == i)
  }

  /** `MakeGoodRemap`: returns the rewritten palette and the remap table. */
  method MakeGoodRemap(base: seq<PalEntry>) returns (newBase: seq<PalEntry>, remap: seq<byte>)
    requires |base| == 256
    ensures |newBase| == 256 && |remap| == 256
    ensures exists d :: 1 <= d < 256 && ChangedAtMost(base, newBase, remap, d)
    ensures (exists j :: 1 <= j < 256 && base[j] == base[0]) ==>
              && newBase == base
              && 1 <= remap[0] && base[remap[0]] == base[0]
              && (forall j :: 1 <= j < remap[0] ==> base[j] != base[0])
              && (forall i :: 1 <= i < 256 ==> remap[i] == i)
    ensures !HasDuplicate(base) ==> newBase == base && remap == Identity()
    ensures AlphaZero(base) ==> forall i :: 0 <= i < 256 ==> newBase[remap[i]] == base[i]
    ensures AlphaZero(base) && HasDuplicate(base) ==> forall i :: 0 <= i < 256 ==> remap[i] != 0
    ensures AlphaZero(base) && HasDuplicate(base) && (forall j :: 1 <= j < 256 ==> base[j] != base[0]) ==>
              TopPairRemap(base, newBase, remap)
  {
    var copy := FindCopyOfZero(base);
    if copy != 0 {
      newBase := base;
      remap := Identity()[0 := copy];
      assert HasDuplicate(base) by {
        assert Rgb24(base[0]) == Rgb24(base[copy]);
      }
      assert ChangedAtMost(base, newBase, remap, 1);
    } else {
      newBase, remap := RemapThroughDuplicate(base);
    }
  }

  /** The outcome of the sort path: index 0 goes to `n0`, the lower index of
      a pair of the highest duplicated colour, which now holds colour 0, and
      `n0` goes to the other index of the pair. */
  ghost predicate TopPairRemap(base: seq<PalEntry>, newBase: seq<PalEntry>, remap: seq<byte>)
    requires |base| == 256 && |newBase| == 256 && |remap| == 256
  {
    var n0 := remap[0];
    && 1 <= n0 < remap[n0]
    && newBase[n0] == base[0]
    && Rgb24(base[n0]) == Rgb24(base[remap[n0]])
    && forall i, j :: 0 <= i < j < 256 && Rgb24(base[i]) == Rgb24(base[j]) ==> Rgb24(base[i]) <= Rgb24(base[n0])
  }

  /** The sort path, taken when no index in 1..255 copies entry 0 exactly. */
  method RemapThroughDuplicate(base: seq<PalEntry>) returns (newBase: seq<PalEntry>, remap: seq<byte>)
    requires |base| == 256
    requires forall j :: 1 <= j < 256 ==> base[j] != base[0]
    ensures |newBase| == 256 && |remap| == 256
    ensures exists d :: 1 <= d < 256 && ChangedAtMost(base, newBase, remap, d)
    ensures !HasDuplicate(base) ==> newBase == base && remap == Identity()
    ensures AlphaZero(base) ==> forall i :: 0 <= i < 256 ==> newBase[remap[i]] == base[i]
    ensures AlphaZero(base) && HasDuplicate(base) ==> forall i :: 0 <= i < 256 ==> remap[i] != 0
    ensures AlphaZero(base) && HasDuplicate(base) ==> TopPairRemap(base, newBase, remap)
  {
    EntryLeIsTotalPreorder();
    var sc := TaggedCopy(base);
    var s := Sorting.Sort(sc, EntryLe);
    assert |s| == |multiset(s)| == |multiset(sc)| == 256;
    var found, i := TopDuplicate(s);
    if !found {
      NoAdjacentNoDuplicate(base, s);
      newBase := base;
      remap := Identity();
      assert ChangedAtMost(base, newBase, remap, 1);
    } else {
      PairInBase(base, s, i);
      newBase, remap := ApplyPair(base, s[i].a, s[i - 1].a);
      if AlphaZero(base) {
        TopPair(base, s, i);
        var x, y := s[i].a, s[i - 1].a;
        assert Min(x, y) != 0;
        assert remap[0] == Min(x, y) && remap[Min(x, y)] == Max(x, y);
        assert Rgb24(base[Min(x, y)]) == Rgb24(s[i]) == Rgb24(base[Max(x, y)]);
        assert TopPairRemap(base, newBase, remap);
      }
    }
  }

  /** The rewrite for the pair (x, y) found in the sorted copy: the lower
      index becomes a copy of colour 0 and is sent to the higher one. */
  method ApplyPair(base: seq<PalEntry>, x: byte, y: byte) returns (newBase: seq<PalEntry>, remap: seq<byte>)
    requires |base| == 256
    ensures |newBase| == 256 && |remap| == 256
    ensures exists d :: 1 <= d < 256 && ChangedAtMost(base, newBase, remap, d)
    ensures Min(x, y) != 0 ==> remap[0] == Min(x, y) && remap[Min(x, y)] == Max(x, y) && newBase[Min(x, y)] == base[0]
    ensures AlphaZero(base) && x != y && Rgb24(base[x]) == Rgb24(base[y]) && (forall j :: 1 <= j < 256 ==> base[j] != base[0]) ==>
              && Min(x, y) != 0
              && (forall i :: 0 <= i < 256 ==> newBase[remap[i]] == base[i])
              && (forall i :: 0 <= i < 256 ==> remap[i] != 0)
              && 1 <= remap[0] < remap[remap[0]]
  {
    var new0 := x;
    var dup := y;
    if new0 > dup {
      new0, dup := dup, new0;
    }
    assert new0 == Min(x, y) && dup == Max(x, y);
    remap := Identity()[0 := new0];
    remap := remap[new0 := dup];
    newBase := base[new0 := base[0]];
    var d := if new0 == 0 then 1 else new0;
    assert ChangedAtMost(base, newBase, remap, d);
    if AlphaZero(base) && x != y && Rgb24(base[x]) == Rgb24(base[y]) && (forall j :: 1 <= j < 256 ==> base[j] != base[0]) {
      SameColorSameEntry(base[new0], base[dup]);
      assert new0 != 0;
    }
  }

  /** Colour order is the order `EntryLe` sorts by; in a sorted run two
      positions of equal colour have an adjacent equal pair at the upper one. */
  lemma AdjacentEqual(s: seq<PalEntry>, lo: int, hi: int)
    requires Sorting.SortedBy(EntryLe, s)
    requires 0 <= lo < hi < |s| && Rgb24(s[lo]) == Rgb24(s[hi])
    ensures Rgb24(s[hi - 1]) == Rgb24(s[hi])
  {
    EntryLeIsTotalPreorder();
    assert EntryLe(s[hi - 1], s[hi]);
    if lo < hi - 1 {
      assert EntryLe(s[lo], s[hi - 1]);
    }
  }

  /** A sorted copy without an adjacent equal pair means no duplicate colours. */
  lemma NoAdjacentNoDuplicate(base: seq<PalEntry>, s: seq<PalEntry>)
    requires |base| == 256 && |s| == 256
    requires multiset(s) == multiset(TaggedCopy(base)) && Sorting.SortedBy(EntryLe, s)
    requires forall p :: 1 <= p <= 255 ==> Rgb24(s[p]) != Rgb24(s[p - 1])
    ensures !HasDuplicate(base)
  {
    var sc := TaggedCopy(base);
    forall x, y | 0 <= x < y < 256
      ensures Rgb24(base[x]) != Rgb24(base[y])
    {
      var P, Q := Sorting.TwoPositions(s, sc, x, y);
      if Rgb24(base[x]) == Rgb24(base[y]) {
        var lo := if P < Q then P else Q;
        var hi := if P < Q then Q else P;
        AdjacentEqual(s, lo, hi);
        assert false;
      }
    }
  }

  /** The adjacent pair found in the sorted copy is a duplicate pair of the
      palette; with zero high bytes the tags are the two distinct indices. */
  lemma PairInBase(base: seq<PalEntry>, s: seq<PalEntry>, i: int)
    requires |base| == 256 && |s| == 256
    requires multiset(s) == multiset(TaggedCopy(base))
    requires 1 <= i <= 255 && Rgb24(s[i]) == Rgb24(s[i - 1])
    ensures HasDuplicate(base)
    ensures AlphaZero(base) ==>
              && s[i].a != s[i - 1].a
              && Rgb24(base[s[i].a]) == Rgb24(s[i]) && Rgb24(base[s[i - 1].a]) == Rgb24(s[i])
  {
    var sc := TaggedCopy(base);
    var P, Q := Sorting.TwoPositions(sc, s, i - 1, i);
    var lo := if P < Q then P else Q;
    var hi := if P < Q then Q else P;
    assert Rgb24(base[lo]) == Rgb24(base[hi]);
    if AlphaZero(base) {
      assert s[i - 1] == base[P].(a := P) && s[i] == base[Q].(a := Q);
    }
  }

  /** With zero high bytes, no colour above the found pair's is duplicated. */
  lemma TopPair(base: seq<PalEntry>, s: seq<PalEntry>, i: int)
    requires |base| == 256 && |s| == 256 && AlphaZero(base)
    requires multiset(s) == multiset(TaggedCopy(base)) && Sorting.SortedBy(EntryLe, s)
    requires 1 <= i <= 255
    requires forall p :: i < p <= 255 ==> Rgb24(s[p]) != Rgb24(s[p - 1])
    ensures forall x, y :: 0 <= x < y < 256 && Rgb24(base[x]) == Rgb24(base[y]) ==> Rgb24(base[x]) <= Rgb24(s[i])
  {
    var sc := TaggedCopy(base);
    EntryLeIsTotalPreorder();
    forall x, y | 0 <= x < y < 256 && Rgb24(base[x]) == Rgb24(base[y])
      ensures Rgb24(base[x]) <= Rgb24(s[i])
    {
      var P, Q := Sorting.TwoPositions(s, sc, x, y);
      var lo := if P < Q then P else Q;
      var hi := if P < Q then Q else P;
      AdjacentEqual(s, lo, hi);
      assert hi <= i;
      if hi < i {
        assert EntryLe(s[hi], s[i]);
      }
    }
  }
}

=== FILE: ptm.dfy ===
/** `PTM_BestColor`: nearest-colour search under a per-channel cost table,
    with the table cached by the gamma it was built for.

    The table's values, `pow(x / 255, gamma)`, are not modelled: the table
    builder is a parameter `build`, and a table is only required to hold 256
    non-negative costs (which every power of a number in [0, 1] is). */
module PerceptualColor {
  import opened Colors
  import NearestColor

  /** A cost table indexed by the absolute difference of one channel. */
  predicate ValidTable(t: seq<real>) {
    |t| == 256 && forall x :: 0 <= x < 256 ==> t[x] >= 0.0
  }

  function Abs(x: int): nat {
    if x < 0 then -x else x
  }

  /** Cost of palette index `c` for the colour (r, g, b): the sum of the three channel costs. */
  function Cost(pal: seq<PalEntry>, t: seq<real>, r: byte, g: byte, b: byte, c: nat): real
    requires |t| == 256 && c < |pal|
  {
    t[Abs(r - pal[c].r)] + t[Abs(g - pal[c].g)] + t[Abs(b - pal[c].b)]
  }

  /** `c` is the lowest index of minimum cost in `[first, num)` (forward mode). */
  ghost predicate IsFirstMin(pal: seq<PalEntry>, t: seq<real>, r: byte, g: byte, b: byte, first: nat, num: nat, c: int)
    requires |t| == 256 && num <= |pal|
  {
    && first <= c < num
    && (forall j :: first <= j < num ==> Cost(pal, t, r, g, b, c) <= Cost(pal, t, r, g, b, j))
    && (forall j :: first <= j < c ==> Cost(pal, t, r, g, b, c) < Cost(pal, t, r, g, b, j))
  }

  /** `c` is the highest index of minimum cost in `[first, num)` (reverse mode). */
  ghost predicate IsLastMin(pal: seq<PalEntry>, t: seq<real>, r: byte, g: byte, b: byte, first: nat, num: nat, c: int)
    requires |t| == 256 && num <= |pal|
  {
    && first <= c < num
    && (forall j :: first <= j < num ==> Cost(pal, t, r, g, b, c) <= Cost(pal, t, r, g, b, j))
    && (forall j :: c < j < num ==> Cost(pal, t, r, g, b, c) < Cost(pal, t, r, g, b, j))
  }

  /** The selection loop: the first index of the range is always taken;
      forward mode replaces on `<` and returns on a zero cost, reverse mode
      replaces on `<=` and never returns early. An empty range yields 0. */
  method SelectBest(pal: seq<PalEntry>, t: seq<real>, r: byte, g: byte, b: byte, reverse: bool, first: nat, num: nat)
    returns (best: nat)
    requires num <= |pal| && ValidTable(t)
    ensures num <= first ==> best == 0
    ensures first < num && !reverse ==> IsFirstMin(pal, t, r, g, b, first, num, best)
    ensures first < num && reverse ==> IsLastMin(pal, t, r, g, b, first, num, best)
    ensures first < num && !reverse && (exists j :: first <= j < num && Cost(pal, t, r, g, b, j) == 0.0) ==>
              Cost(pal, t, r, g, b, best) == 0.0 && forall j :: first <= j < best ==> Cost(pal, t, r, g, b, j) != 0.0
  {
    best := 0;
    var fbest: real := 0.0;
    var color := first;
    while color < num
      invariant first <= color && (color <= num || color == first)
      invariant color == first ==> best == 0
      invariant color > first ==> first <= best < color && fbest == Cost(pal, t, r, g, b, best)
      invariant forall j :: first <= j < color ==> fbest <= Cost(pal, t, r, g, b, j)
      invariant !reverse ==> forall j :: first <= j < best ==> fbest < Cost(pal, t, r, g, b, j)
      invariant reverse ==> forall j :: first <= j < color && best < j ==> fbest < Cost(pal, t, r, g, b, j)
      invariant !reverse && color > first ==> fbest > 0.0
    {
      var fdist := Cost(pal, t, r, g, b, color);
      if color == first || (if reverse then fdist <= fbest else fdist < fbest) {
        if fdist == 0.0 && !reverse {
          return color;
        }
        fbest := fdist;
        best := color;
      }
      color := color + 1;
    }
  }

  /** The process-wide cache: whether no table was built yet, the gamma of the
      last build, and the table itself. */
  datatype PowCache = PowCache(firstTime: bool, track: real, table: seq<real>)

  /** The state before the first call: a zero table keyed by gamma 0. */
  function InitialCache(): PowCache {
    PowCache(true, 0.0, seq(256, _ => 0.0))
  }

  /** Once built, the cached table is the one its gamma yields. */
  ghost predicate Coherent(c: PowCache, build: real -> seq<real>) {
    !c.firstTime ==> c.table == build(c.track)
  }

  lemma InitialCacheCoherent(build: real -> seq<real>)
    ensures Coherent(InitialCache(), build)
    ensures InitialCache().firstTime
  {
  }

  /** The rebuild-on-demand transition: after it the cache holds the table of
      the requested gamma, and it is left alone exactly when it was already
      built for that gamma. */
  function Refresh(c: PowCache, gamma: real, build: real -> seq<real>): (c': PowCache)
    requires Coherent(c, build)
    ensures Coherent(c', build)
    ensures !c'.firstTime && c'.track == gamma
    ensures c'.table == build(gamma)
    ensures c' == c <==> (!c.firstTime && c.track == gamma)
  {
    if c.firstTime || c.track != gamma then PowCache(false, gamma, build(gamma)) else c
  }

  /** `PTM_BestColor`: refresh the cache, then select with the cached table.
      The selection is the one the freshly built table for `gamma` gives. */
  method PtmBestColor(cache: PowCache, build: real -> seq<real>, pal: seq<PalEntry>, r: byte, g: byte, b: byte,
                      reverse: bool, gamma: real, first: nat, num: nat)
    returns (best: nat, cache': PowCache)
    requires Coherent(cache, build) && ValidTable(build(gamma))
    requires num <= |pal|
    ensures Coherent(cache', build) && !cache'.firstTime && cache'.track == gamma
    ensures cache' == cache <==> (!cache.firstTime && cache.track == gamma)
    ensures num <= first ==> best == 0
    ensures first < num && !reverse ==> IsFirstMin(pal, build(gamma), r, g, b, first, num, best)
    ensures first < num && reverse ==> IsLastMin(pal, build(gamma), r, g, b, first, num, best)
  {
    cache' := Refresh(cache, gamma, build);
    best := SelectBest(pal, cache'.table, r, g, b, reverse, first, num);
  }

  /** Only an exact colour costs nothing under a table that is zero exactly at 0. */
  lemma CostZeroIffExact(pal: seq<PalEntry>, t: seq<real>, r: byte, g: byte, b: byte, c: nat)
    requires ValidTable(t) && c < |pal|
    requires t[0] == 0.0 && forall x :: 1 <= x < 256 ==> t[x] > 0.0
    ensures Cost(pal, t, r, g, b, c) == 0.0 <==> (pal[c].r == r && pal[c].g == g && pal[c].b == b)
  {
  }

  /** With a table that is zero exactly at difference 0 (any positive gamma),
      forward mode and `BestColor` pick the same index whenever the range
      holds the exact colour. */
  lemma ForwardAgreesWithBestColor(pal: seq<PalEntry>, t: seq<real>, r: byte, g: byte, b: byte,
                                   first: nat, num: nat, c1: int, c2: int, j: int)
    requires ValidTable(t) && num <= |pal|
    requires t[0] == 0.0 && forall x :: 1 <= x < 256 ==> t[x] > 0.0
    requires first <= j < num && pal[j].r == r && pal[j].g == g && pal[j].b == b
    requires IsFirstMin(pal, t, r, g, b, first, num, c1)
    requires NearestColor.IsBest(pal, r, g, b, first, num, c2)
    ensures c1 == c2
  {
    NearestColor.BestIsFirstExact(pal, r, g, b, first, num, c2, j);
    forall i | first <= i < num
      ensures Cost(pal, t, r, g, b, i) == 0.0 <==> (pal[i].r == r && pal[i].g == g && pal[i].b == b)
    {
      CostZeroIffExact(pal, t, r, g, b, i);
    }
  }
}

=== FILE: remap.dfy ===
/** `MakeRemap`: maps each useful entry of a foreign palette to an entry of
    the base palette. Base entries 1..255 and the useful foreign entries are
    put in one work list and sorted by colour, foreign entries first among
    equal colours; a foreign entry directly followed by a base entry of the
    same colour is an exact match, and every foreign entry left over is
    mapped to the nearest base colour in 1..254. */
module Remap {
  import opened Colors
  import NearestColor
  import Sorting

  /** A packed 24-bit colour. */
  type Color24 = x: nat | x < 0x100_0000

  /** One work-list item: a colour, 0 for a base entry, 1 for a foreign
      entry still to be mapped and 2 for a foreign entry mapped by an exact
      match, and the entry's index in its own palette. */
  datatype RemappingWork = RemappingWork(color: Color24, foreign: byte, palEntry: byte)

  /** The `useful` argument: a null pointer means every entry is useful. */
  datatype Mask = AllUseful | Flags(flags: seq<byte>)

  predicate IsUseful(m: Mask, i: nat) {
    match m
    case AllUseful => true
    case Flags(f) => i < |f| && f[i] != 0
  }

  predicate CoversRange(m: Mask, numcolors: nat) {
    m.Flags? ==> numcolors <= |m.flags|
  }

  /** `sortforremap2`: the 32-bit difference of the colours read as a
      signed int, or, for equal colours, `b.Foreign - a.Foreign`. */
  function SortForRemap2(x: RemappingWork, y: RemappingWork): int {
    if x.color == y.color then y.foreign - x.foreign
    else ToInt32((x.color - y.color) % 0x1_0000_0000)
  }

  /** Colours are ascending; among equal colours a larger `foreign` comes first. */
  lemma SortForRemap2Sign(x: RemappingWork, y: RemappingWork)
    ensures SortForRemap2(x, y) < 0 <==> x.color < y.color || (x.color == y.color && x.foreign > y.foreign)
    ensures SortForRemap2(x, y) == 0 <==> x.color == y.color && x.foreign == y.foreign
    ensures SortForRemap2(x, y) == -SortForRemap2(y, x)
  {
    if x.color != y.color {
      ColorDifference(x.color, y.color);
      ColorDifference(y.color, x.color);
    }
  }

  /** The order `qsort` establishes with `sortforremap2`. */
  predicate WorkLe(x: RemappingWork, y: RemappingWork) {
    SortForRemap2(x, y) <= 0
  }

  /** `sortforremap2` is a consistent comparator: a total preorder. */
  lemma WorkLeIsTotalPreorder()
    ensures Sorting.Total(WorkLe) && Sorting.Transitive(WorkLe)
  {
    forall x: RemappingWork, y: RemappingWork
      ensures WorkLe(x, y) || WorkLe(y, x)
    {
      SortForRemap2Sign(x, y);
    }
    forall x: RemappingWork, y: RemappingWork, z: RemappingWork | WorkLe(x, y) && WorkLe(y, z)
      ensures WorkLe(x, z)
    {
      SortForRemap2Sign(x, y);
      SortForRemap2Sign(y, z);
      SortForRemap2Sign(x, z);
    }
  }

  /** A foreign entry waiting for a target. */
  predicate Unmatched(w: RemappingWork) {
    w.foreign == 1
  }

  /** What every work-list item records: a base entry in 1..255 with its
      colour, or a useful foreign entry below `numcolors` with its colour. */
  predicate WfEntry(base: seq<PalEntry>, colors: seq<PalEntry>, m: Mask, numcolors: nat, w: RemappingWork)
    requires |base| == 256 && numcolors <= |colors|
  {
    if w.foreign == 0 then 1 <= w.palEntry && w.color == Rgb24(base[w.palEntry])
    else w.palEntry < numcolors && IsUseful(m, w.palEntry) && w.color == Rgb24(colors[w.palEntry])
  }

  predicate WfList(base: seq<PalEntry>, colors: seq<PalEntry>, m: Mask, numcolors: nat, ws: seq<RemappingWork>)
    requires |base| == 256 && numcolors <= |colors|
  {
    forall p :: 0 <= p < |ws| ==> WfEntry(base, colors, m, numcolors, ws[p])
  }

  /** An acceptable target for foreign colour `c`: an index in 1..255 holding
      exactly that colour, or the index `BestColor(base, c, 1, 255)` yields. */
  ghost predicate Good(base: seq<PalEntry>, c: PalEntry, t: int)
    requires |base| == 256
  {
    && 1 <= t <= 255
    && (Rgb24(base[t]) == Rgb24(c) || NearestColor.IsBest(base, c.r, c.g, c.b, 1, 255, t))
  }

  /** What an acceptable target means for the caller: when the base palette
      holds the colour in 1..254 the target has exactly that colour (the
      near-match search stops at the first exact copy), and when it holds it
      nowhere in 1..255 the target is the nearest colour, never 255. */
  lemma GoodMeaning(base: seq<PalEntry>, c: PalEntry, t: int)
    requires |base| == 256 && Good(base, c, t)
    ensures (exists j :: 1 <= j <= 254 && Rgb24(base[j]) == Rgb24(c)) ==> Rgb24(base[t]) == Rgb24(c)
    ensures (forall j :: 1 <= j <= 255 ==> Rgb24(base[j]) != Rgb24(c)) ==>
              NearestColor.IsBest(base, c.r, c.g, c.b, 1, 255, t) && t <= 254
  {
    if exists j :: 1 <= j <= 254 && Rgb24(base[j]) == Rgb24(c) {
      var j :| 1 <= j <= 254 && Rgb24(base[j]) == Rgb24(c);
      if Rgb24(base[t]) != Rgb24(c) {
        Rgb24Injective(base[j], c);
        NearestColor.BestIsFirstExact(base, c.r, c.g, c.b, 1, 255, t, j);
        Rgb24Injective(base[t], c);
      }
    }
  }

  /** Foreign index `v` still has an unmatched item at position `from` or later. */
  ghost predicate PendingFrom(ws: seq<RemappingWork>, from: nat, v: nat) {
    exists p :: from <= p < |ws| && Unmatched(ws[p]) && ws[p].palEntry == v
  }

  /** The state of the remap table during the passes: entries past
      `numcolors` untouched, useless entries 0, useful entries either acceptable
      or still pending in the work list from position `from`. */
  ghost predicate RemapState(base: seq<PalEntry>, colors: seq<PalEntry>, m: Mask, numcolors: nat,
                             remap0: seq<byte>, remap: seq<byte>, ws: seq<RemappingWork>, from: nat)
    requires |base| == 256 && numcolors <= |colors| && numcolors <= |remap0|
  {
    && |remap| == |remap0|
    && (forall i :: numcolors <= i < |remap| ==> remap[i] == remap0[i])
    && (forall i :: 0 <= i < numcolors && !IsUseful(m, i) ==> remap[i] == 0)
    && (forall i :: 0 <= i < numcolors && IsUseful(m, i) ==>
          Good(base, colors[i], remap[i]) || PendingFrom(ws, from, i))
  }

  /** The first loops of `MakeRemap`: base entries 1..255, then every useful
      foreign entry in index order; useless entries are mapped to 0. */
  method BuildWorkspace(base: seq<PalEntry>, colors: seq<PalEntry>, m: Mask, numcolors: nat, remap: seq<byte>)
    returns (ws: seq<RemappingWork>, remap': seq<byte>, k: nat)
    requires |base| == 256 && numcolors <= 256 && numcolors <= |colors| && numcolors <= |remap|
    requires CoversRange(m, numcolors)
    ensures 255 <= |ws| <= 255 + 256
    ensures forall p :: 0 <= p < 255 ==> ws[p] == RemappingWork(Rgb24(base[p + 1]), 0, p + 1)
    ensures WfList(base, colors, m, numcolors, ws)
    ensures Sorting.Distinct(ws)
    ensures k == Sorting.CountIf(ws, Unmatched)
    ensures RemapState(base, colors, m, numcolors, remap, remap', ws, 0)
    ensures forall p :: 255 <= p < |ws| ==> Unmatched(ws[p])
    ensures forall p, q :: 255 <= p < q < |ws| ==> ws[p].palEntry < ws[q].palEntry
    ensures forall v :: 0 <= v < numcolors && IsUseful(m, v) ==> PendingFrom(ws, 0, v)
  {
    ws := BaseItems(base);
    remap' := remap;
    k := 0;
    for i := 0 to numcolors
      invariant BuildInv(base, colors, m, numcolors, remap, ws, remap', k, i)
    {
      ws, remap', k := ForeignItem(base, colors, m, numcolors, remap, ws, remap', k, i);
    }
    BuiltDistinct(ws);
  }

  /** The first loop: the base entries 1..255 with their colours. */
  method BaseItems(base: seq<PalEntry>) returns (ws: seq<RemappingWork>)
    requires |base| == 256
    ensures |ws| == 255
    ensures forall p :: 0 <= p < 255 ==> ws[p] == RemappingWork(Rgb24(base[p + 1]), 0, p + 1)
    ensures Sorting.CountIf(ws, Unmatched) == 0
  {
    ws := [];
    for i := 1 to 256
      invariant |ws| == i - 1
      invariant forall p :: 0 <= p < i - 1 ==> ws[p] == RemappingWork(Rgb24(base[p + 1]), 0, p + 1)
    {
      ws := ws + [RemappingWork(Rgb24(base[i]), 0, i)];
    }
    ZeroUnmatched(ws);
  }

  /** The state of the second loop before foreign index `i`. */
  ghost predicate BuildInv(base: seq<PalEntry>, colors: seq<PalEntry>, m: Mask, numcolors: nat,
                           remap0: seq<byte>, ws: seq<RemappingWork>, remap: seq<byte>, k: nat, i: nat)
    requires |base| == 256 && numcolors <= |colors|
  {
    && 255 <= |ws| <= 255 + i
    && (forall p :: 0 <= p < 255 ==> ws[p] == RemappingWork(Rgb24(base[p + 1]), 0, p + 1))
    && (forall p :: 255 <= p < |ws| ==> Unmatched(ws[p]) && ws[p].palEntry < i)
    && (forall p, q :: 255 <= p < q < |ws| ==> ws[p].palEntry < ws[q].palEntry)
    && WfList(base, colors, m, numcolors, ws)
    && k == Sorting.CountIf(ws, Unmatched)
    && |remap| == |remap0| && i <= |remap|
    && (forall v :: i <= v < |remap| ==> remap[v] == remap0[v])
    && (forall v :: 0 <= v < i && !IsUseful(m, v) ==> remap[v] == 0)
    && (forall v :: 0 <= v < i && IsUseful(m, v) ==> PendingFrom(ws, 0, v))
  }

  /** One iteration of the second loop: a useful entry is appended as a
      pending foreign item, a useless one is mapped to 0. */
  method ForeignItem(base: seq<PalEntry>, colors: seq<PalEntry>, m: Mask, numcolors: nat,
                     remap0: seq<byte>, ws: seq<RemappingWork>, remap: seq<byte>, k: nat, i: nat)
    returns (ws': seq<RemappingWork>, remap': seq<byte>, k': nat)
    requires |base| == 256 && numcolors <= 256 && numcolors <= |colors| && numcolors <= |remap0|
    requires CoversRange(m, numcolors) && i < numcolors
    requires BuildInv(base, colors, m, numcolors, remap0, ws, remap, k, i)
    ensures BuildInv(base, colors, m, numcolors, remap0, ws', remap', k', i + 1)
  {
    if IsUseful(m, i) {
      var w := RemappingWork(Rgb24(colors[i]), 1, i);
      Sorting.CountIfConcat(ws, [w], Unmatched);
      assert Sorting.CountIf([w], Unmatched) == 1;
      ws' := ws + [w];
      remap' := remap;
      k' := k + 1;
      forall v | 0 <= v <= i && IsUseful(m, v)
        ensures PendingFrom(ws', 0, v)
      {
        if v == i {
          assert ws'[|ws'| - 1] == w;
        } else {
          var p :| 0 <= p < |ws| && Unmatched(ws[p]) && ws[p].palEntry == v;
          assert ws'[p] == ws[p];
        }
      }
    } else {
      ws', k' := ws, k;
      remap' := remap[i := 0];
    }
  }

  /** The built list has no repeats: base items differ in index, base and
      foreign items in the mark, foreign items in index. */
  lemma BuiltDistinct(ws: seq<RemappingWork>)
    requires 255 <= |ws|
    requires forall p :: 0 <= p < 255 ==> ws[p].foreign == 0 && ws[p].palEntry == p + 1
    requires forall p :: 255 <= p < |ws| ==> Unmatched(ws[p])
    requires forall p, q :: 255 <= p < q < |ws| ==> ws[p].palEntry < ws[q].palEntry
    ensures Sorting.Distinct(ws)
  {
    forall p, q | 0 <= p < q < |ws|
      ensures ws[p] != ws[q]
    {
      if q < 255 {
        assert ws[p].palEntry == p + 1 && ws[q].palEntry == q + 1;
      } else if p < 255 {
        assert ws[p].foreign == 0 && ws[q].foreign == 1;
      }
    }
  }

  lemma {:induction false} ZeroUnmatched(ws: seq<RemappingWork>)
    requires forall p :: 0 <= p < |ws| ==> ws[p].foreign == 0
    ensures Sorting.CountIf(ws, Unmatched) == 0
    decreases |ws|
  {
    if ws != [] {
      ZeroUnmatched(ws[1..]);
    }
  }

  /** Items that are not base entries: the foreign ones, pending or matched. */
  predicate IsForeign(w: RemappingWork) {
    w.foreign != 0
  }

  /** No two foreign items stand for the same foreign index. */
  predicate SoleItem(ws: seq<RemappingWork>) {
    forall p, q :: 0 <= p < q < |ws| && IsForeign(ws[p]) && IsForeign(ws[q]) ==> ws[p].palEntry != ws[q].palEntry
  }

  /** Every foreign item marked as an exact match has its index mapped to a
      base entry of the same colour. */
  ghost predicate MatchedExact(base: seq<PalEntry>, ws: seq<RemappingWork>, remap: seq<byte>)
    requires |base| == 256
  {
    forall p :: 0 <= p < |ws| && ws[p].foreign == 2 ==>
      ws[p].palEntry < |remap| && 1 <= remap[ws[p].palEntry] && Rgb24(base[remap[ws[p].palEntry]]) == ws[p].color
  }

  /** Some item of `ws` for foreign index `v` is marked as an exact match. */
  ghost predicate Settled(ws: seq<RemappingWork>, v: nat) {
    exists p :: 0 <= p < |ws| && ws[p].foreign == 2 && ws[p].palEntry == v
  }

  /** Every item marked as an exact match has its index mapped to the base
      entry of the item that follows it in the sorted list `s0`. */
  ghost predicate MatchedNext(s0: seq<RemappingWork>, ws: seq<RemappingWork>, remap: seq<byte>) {
    forall p :: 0 <= p < |ws| && ws[p].foreign == 2 ==>
      p + 1 < |s0| && ws[p].palEntry < |remap| && remap[ws[p].palEntry] == s0[p + 1].palEntry
  }

  /** A well-formed list without repeats holds each foreign index at most once. */
  lemma DistinctSole(base: seq<PalEntry>, colors: seq<PalEntry>, m: Mask, numcolors: nat, ws: seq<RemappingWork>)
    requires |base| == 256 && numcolors <= |colors|
    requires WfList(base, colors, m, numcolors, ws) && Sorting.Distinct(ws)
    requires forall p :: 0 <= p < |ws| ==> ws[p].foreign <= 1
    ensures SoleItem(ws)
  {
    forall p, q | 0 <= p < q < |ws| && IsForeign(ws[p]) && IsForeign(ws[q])
      ensures ws[p].palEntry != ws[q].palEntry
    {
      assert WfEntry(base, colors, m, numcolors, ws[p]) && WfEntry(base, colors, m, numcolors, ws[q]);
    }
  }

  /** The exact-match pass over the sorted list `s0`: a pending foreign item
      directly followed by a base item of the same colour is mapped to that
      base entry, marked 2, and the base item is skipped. */
  method ExactPass(base: seq<PalEntry>, colors: seq<PalEntry>, m: Mask, numcolors: nat,
                   remap0: seq<byte>, s0: seq<RemappingWork>, remap: seq<byte>, k: nat)
    returns (ws: seq<RemappingWork>, remap': seq<byte>, k': nat)
    requires |base| == 256 && numcolors <= |colors| && numcolors <= |remap0|
    requires 1 <= |s0|
    requires WfList(base, colors, m, numcolors, s0) && SoleItem(s0)
    requires forall p :: 0 <= p < |s0| ==> s0[p].foreign <= 1
    requires k == Sorting.CountIf(s0, Unmatched)
    requires RemapState(base, colors, m, numcolors, remap0, remap, s0, 0)
    ensures |ws| == |s0|
    ensures forall p :: 0 <= p < |ws| ==>
              && ws[p].color == s0[p].color && ws[p].palEntry == s0[p].palEntry
              && (ws[p].foreign == s0[p].foreign || (Unmatched(s0[p]) && ws[p].foreign == 2))
    ensures WfList(base, colors, m, numcolors, ws) && SoleItem(ws)
    ensures k' == Sorting.CountIf(ws, Unmatched)
    ensures RemapState(base, colors, m, numcolors, remap0, remap', ws, 0)
    ensures MatchedExact(base, ws, remap')
    ensures forall p :: 0 <= p < |s0| - 1 && Unmatched(s0[p]) && s0[p + 1].foreign == 0 && s0[p + 1].color == s0[p].color ==>
              ws[p].foreign == 2
    ensures MatchedNext(s0, ws, remap')
    ensures forall v :: 0 <= v < |remap| && !Settled(ws, v) ==> remap'[v] == remap[v]
  {
    ws := s0;
    remap' := remap;
    k' := k;
    var j := |s0| - 1;
    var i := 0;
    while i < j
      invariant ExactInv(base, colors, m, numcolors, remap0, s0, ws, remap', k', i)
      invariant MatchedNext(s0, ws, remap')
      invariant |remap'| == |remap|
      invariant forall v :: 0 <= v < |remap| && !Settled(ws, v) ==> remap'[v] == remap[v]
      decreases |s0| - i
    {
      var ws0, remap1 := ws, remap';
      ws, remap', k', i := ExactStep(base, colors, m, numcolors, remap0, s0, ws, remap', k', i);
      forall v | 0 <= v < |remap| && !Settled(ws, v)
        ensures remap'[v] == remap[v]
      {
        assert !Settled(ws0, v);
      }
    }
  }

  /** The state of the exact-match pass before position `i`: items from `i`
      on are untouched, earlier ones differ from the sorted list at most by
      the mark 2, and every pending item followed by a base item of its
      colour before `i` has been matched. */
  ghost predicate ExactInv(base: seq<PalEntry>, colors: seq<PalEntry>, m: Mask, numcolors: nat,
                           remap0: seq<byte>, s0: seq<RemappingWork>, ws: seq<RemappingWork>, remap: seq<byte>, k: nat, i: nat)
    requires |base| == 256 && numcolors <= |colors| && numcolors <= |remap0|
  {
    && i <= |s0| && |ws| == |s0|
    && (forall p :: i <= p < |ws| ==> ws[p] == s0[p])
    && (forall p :: 0 <= p < |ws| ==>
          && ws[p].color == s0[p].color && ws[p].palEntry == s0[p].palEntry
          && (ws[p].foreign == s0[p].foreign || (Unmatched(s0[p]) && ws[p].foreign == 2)))
    && WfList(base, colors, m, numcolors, ws) && SoleItem(ws)
    && k == Sorting.CountIf(ws, Unmatched)
    && RemapState(base, colors, m, numcolors, remap0, remap, ws, 0)
    && MatchedExact(base, ws, remap)
    && (forall p :: 0 <= p < i && p < |s0| - 1 && Unmatched(s0[p]) && s0[p + 1].foreign == 0 && s0[p + 1].color == s0[p].color ==>
          ws[p].foreign == 2)
  }

  /** One iteration of the exact-match loop at position `i`. */
  method ExactStep(base: seq<PalEntry>, colors: seq<PalEntry>, m: Mask, numcolors: nat,
                   remap0: seq<byte>, s0: seq<RemappingWork>, ws: seq<RemappingWork>, remap: seq<byte>, k: nat, i: nat)
    returns (ws': seq<RemappingWork>, remap': seq<byte>, k': nat, i': nat)
    requires |base| == 256 && numcolors <= |colors| && numcolors <= |remap0|
    requires i + 1 < |s0|
    requires forall p :: 0 <= p < |s0| ==> s0[p].foreign <= 1
    requires ExactInv(base, colors, m, numcolors, remap0, s0, ws, remap, k, i)
    requires MatchedNext(s0, ws, remap)
    ensures i < i' && ExactInv(base, colors, m, numcolors, remap0, s0, ws', remap', k', i')
    ensures MatchedNext(s0, ws', remap')
    ensures |remap'| == |remap|
    ensures forall v :: 0 <= v < |remap| && !Settled(ws', v) ==> remap'[v] == remap[v]
    ensures forall v :: Settled(ws, v) ==> Settled(ws', v)
  {
    if ws[i].foreign != 0 && ws[i + 1].foreign == 0 && ws[i].color == ws[i + 1].color {
      ws', remap', k' := MatchStep(base, colors, m, numcolors, remap0, s0, ws, remap, k, i);
      MatchAdvances(base, colors, m, numcolors, remap0, s0, ws, remap, k, ws', remap', k', i);
      MatchKeepsNext(s0, ws, remap, ws', remap', i);
      i' := i + 2;
    } else {
      SkipAdvances(base, colors, m, numcolors, remap0, s0, ws, remap, k, i);
      ws', remap', k', i' := ws, remap, k, i + 1;
    }
  }

  /** After a match at `i` the pass resumes at `i + 2`. */
  lemma MatchAdvances(base: seq<PalEntry>, colors: seq<PalEntry>, m: Mask, numcolors: nat,
                      remap0: seq<byte>, s0: seq<RemappingWork>, ws: seq<RemappingWork>, remap: seq<byte>, k: nat,
                      ws': seq<RemappingWork>, remap': seq<byte>, k': nat, i: nat)
    requires |base| == 256 && numcolors <= |colors| && numcolors <= |remap0|
    requires i + 1 < |s0|
    requires forall p :: 0 <= p < |s0| ==> s0[p].foreign <= 1
    requires ExactInv(base, colors, m, numcolors, remap0, s0, ws, remap, k, i)
    requires ws[i].foreign != 0 && ws[i + 1].foreign == 0
    requires ws' == ws[i := ws[i].(foreign := 2)]
    requires WfList(base, colors, m, numcolors, ws') && SoleItem(ws')
    requires k' == Sorting.CountIf(ws', Unmatched)
    requires RemapState(base, colors, m, numcolors, remap0, remap', ws', 0)
    requires MatchedExact(base, ws', remap')
    ensures ExactInv(base, colors, m, numcolors, remap0, s0, ws', remap', k', i + 2)
  {
    forall p | i + 2 <= p < |ws'|
      ensures ws'[p] == s0[p]
    {
      assert ws'[p] == ws[p];
    }
    forall p | 0 <= p < |ws'|
      ensures ws'[p].color == s0[p].color && ws'[p].palEntry == s0[p].palEntry
      ensures ws'[p].foreign == s0[p].foreign || (Unmatched(s0[p]) && ws'[p].foreign == 2)
    {
      if p == i {
        assert s0[i] == ws[i];
      } else {
        assert ws'[p] == ws[p];
      }
    }
    forall p | 0 <= p < i + 2 && p < |s0| - 1 && Unmatched(s0[p]) && s0[p + 1].foreign == 0 && s0[p + 1].color == s0[p].color
      ensures ws'[p].foreign == 2
    {
      if p < i {
        assert ws'[p] == ws[p];
      }
    }
  }

  /** Without a match at `i` the pass moves on to `i + 1`. */
  lemma SkipAdvances(base: seq<PalEntry>, colors: seq<PalEntry>, m: Mask, numcolors: nat,
                     remap0: seq<byte>, s0: seq<RemappingWork>, ws: seq<RemappingWork>, remap: seq<byte>, k: nat, i: nat)
    requires |base| == 256 && numcolors <= |colors| && numcolors <= |remap0|
    requires i + 1 < |s0|
    requires ExactInv(base, colors, m, numcolors, remap0, s0, ws, remap, k, i)
    requires !(ws[i].foreign != 0 && ws[i + 1].foreign == 0 && ws[i].color == ws[i + 1].color)
    ensures ExactInv(base, colors, m, numcolors, remap0, s0, ws, remap, k, i + 1)
  {
  }

  /** One exact match at position `i`: `remap[ws[i].palEntry] = ws[i+1].palEntry`
      and the item is marked 2. */
  method MatchStep(base: seq<PalEntry>, colors: seq<PalEntry>, m: Mask, numcolors: nat,
                   remap0: seq<byte>, s0: seq<RemappingWork>, ws: seq<RemappingWork>, remap: seq<byte>, k: nat, i: nat)
    returns (ws': seq<RemappingWork>, remap': seq<byte>, k': nat)
    requires |base| == 256 && numcolors <= |colors| && numcolors <= |remap0|
    requires i + 1 < |ws| == |s0|
    requires forall p :: i <= p < |ws| ==> ws[p] == s0[p]
    requires forall p :: 0 <= p < |s0| ==> s0[p].foreign <= 1
    requires ws[i].foreign != 0 && ws[i + 1].foreign == 0 && ws[i].color == ws[i + 1].color
    requires WfList(base, colors, m, numcolors, ws) && SoleItem(ws)
    requires k == Sorting.CountIf(ws, Unmatched)
    requires RemapState(base, colors, m, numcolors, remap0, remap, ws, 0)
    requires MatchedExact(base, ws, remap)
    ensures ws' == ws[i := ws[i].(foreign := 2)]
    ensures WfList(base, colors, m, numcolors, ws') && SoleItem(ws')
    ensures k' == Sorting.CountIf(ws', Unmatched)
    ensures RemapState(base, colors, m, numcolors, remap0, remap', ws', 0)
    ensures MatchedExact(base, ws', remap')
    ensures |remap'| == |remap| && ws[i].palEntry < |remap'| && remap'[ws[i].palEntry] == ws[i + 1].palEntry
    ensures forall v :: 0 <= v < |remap| && v != ws[i].palEntry ==> remap'[v] == remap[v]
  {
    assert WfEntry(base, colors, m, numcolors, ws[i]) && WfEntry(base, colors, m, numcolors, ws[i + 1]);
    remap' := remap[ws[i].palEntry := ws[i + 1].palEntry];
    ws' := ws[i := ws[i].(foreign := 2)];
    Sorting.CountIfUpdate(ws, i, ws[i].(foreign := 2), Unmatched);
    k' := k - 1;
    MatchKeepsState(base, colors, m, numcolors, remap0, ws, ws', remap, remap', i);
    MatchKeepsMatched(base, colors, m, numcolors, ws, ws', remap, remap', i);
    assert WfList(base, colors, m, numcolors, ws') by {
      forall p | 0 <= p < |ws'|
        ensures WfEntry(base, colors, m, numcolors, ws'[p])
      {
        assert WfEntry(base, colors, m, numcolors, ws[p]);
      }
    }
  }

  /** An exact match at `i` maps the item's index to the base entry that
      follows it, marks no other index and moves no earlier match. */
  lemma MatchKeepsNext(s0: seq<RemappingWork>, ws: seq<RemappingWork>, remap: seq<byte>,
                       ws': seq<RemappingWork>, remap': seq<byte>, i: nat)
    requires i + 1 < |ws| == |s0| && ws[i + 1] == s0[i + 1] && ws[i].foreign == 1
    requires SoleItem(ws) && MatchedNext(s0, ws, remap)
    requires ws' == ws[i := ws[i].(foreign := 2)]
    requires |remap'| == |remap| && ws[i].palEntry < |remap'| && remap'[ws[i].palEntry] == ws[i + 1].palEntry
    requires forall v :: 0 <= v < |remap| && v != ws[i].palEntry ==> remap'[v] == remap[v]
    ensures MatchedNext(s0, ws', remap')
    ensures forall v :: 0 <= v < |remap| && !Settled(ws', v) ==> remap'[v] == remap[v]
    ensures forall v :: Settled(ws, v) ==> Settled(ws', v)
  {
    forall p | 0 <= p < |ws'| && ws'[p].foreign == 2
      ensures p + 1 < |s0| && ws'[p].palEntry < |remap'| && remap'[ws'[p].palEntry] == s0[p + 1].palEntry
    {
      if p != i {
        assert ws'[p] == ws[p];
        assert IsForeign(ws[p]) && IsForeign(ws[i]);
      }
    }
    forall v | 0 <= v < |remap| && !Settled(ws', v)
      ensures remap'[v] == remap[v]
    {
      assert ws'[i].palEntry == ws[i].palEntry;
    }
    forall v | Settled(ws, v)
      ensures Settled(ws', v)
    {
      var p :| 0 <= p < |ws| && ws[p].foreign == 2 && ws[p].palEntry == v;
      assert ws'[p] == ws[p];
    }
  }

  /** An exact match at `i` settles the pending item's index with a base
      entry of its colour and leaves every other index as it was. */
  lemma MatchKeepsState(base: seq<PalEntry>, colors: seq<PalEntry>, m: Mask, numcolors: nat,
                        remap0: seq<byte>, ws: seq<RemappingWork>, ws': seq<RemappingWork>,
                        remap: seq<byte>, remap': seq<byte>, i: nat)
    requires |base| == 256 && numcolors <= |colors| && numcolors <= |remap0|
    requires i + 1 < |ws| && ws[i].foreign != 0 && ws[i + 1].foreign == 0 && ws[i].color == ws[i + 1].color
    requires WfEntry(base, colors, m, numcolors, ws[i]) && WfEntry(base, colors, m, numcolors, ws[i + 1])
    requires RemapState(base, colors, m, numcolors, remap0, remap, ws, 0)
    requires remap' == remap[ws[i].palEntry := ws[i + 1].palEntry]
    requires ws' == ws[i := ws[i].(foreign := 2)]
    ensures RemapState(base, colors, m, numcolors, remap0, remap', ws', 0)
  {
    var u := ws[i].palEntry;
    assert Good(base, colors[u], remap'[u]);
    forall v | 0 <= v < numcolors && IsUseful(m, v) && v != u
      ensures Good(base, colors[v], remap'[v]) || PendingFrom(ws', 0, v)
    {
      if !Good(base, colors[v], remap'[v]) {
        var p :| 0 <= p < |ws| && Unmatched(ws[p]) && ws[p].palEntry == v;
        assert ws'[p] == ws[p];
      }
    }
  }

  /** After an exact match at `i` every item marked 2, the new one included,
      has its index mapped to a base entry of its colour. */
  lemma MatchKeepsMatched(base: seq<PalEntry>, colors: seq<PalEntry>, m: Mask, numcolors: nat,
                          ws: seq<RemappingWork>, ws': seq<RemappingWork>,
                          remap: seq<byte>, remap': seq<byte>, i: nat)
    requires |base| == 256 && numcolors <= |colors|
    requires i + 1 < |ws| && ws[i].foreign != 0 && ws[i + 1].foreign == 0 && ws[i].color == ws[i + 1].color
    requires WfEntry(base, colors, m, numcolors, ws[i]) && WfEntry(base, colors, m, numcolors, ws[i + 1])
    requires SoleItem(ws) && MatchedExact(base, ws, remap) && ws[i].palEntry < |remap|
    requires remap' == remap[ws[i].palEntry := ws[i + 1].palEntry]
    requires ws' == ws[i := ws[i].(foreign := 2)]
    ensures SoleItem(ws') && MatchedExact(base, ws', remap')
  {
    forall p | 0 <= p < |ws'| && ws'[p].foreign == 2
      ensures ws'[p].palEntry < |remap'| && 1 <= remap'[ws'[p].palEntry] && Rgb24(base[remap'[ws'[p].palEntry]]) == ws'[p].color
    {
      if p != i {
        assert ws'[p] == ws[p];
        assert IsForeign(ws[p]) && IsForeign(ws[i]);
      }
    }
    forall p, q | 0 <= p < q < |ws'| && IsForeign(ws'[p]) && IsForeign(ws'[q])
      ensures ws'[p].palEntry != ws'[q].palEntry
    {
      assert IsForeign(ws[p]) && IsForeign(ws[q]);
    }
  }

  /** The near-match pass: when `k` pending items remain, each is mapped to
      `BestColor(base, r, g, b, 1, 255)` of its colour. */
  method NearPass(base: seq<PalEntry>, colors: seq<PalEntry>, m: Mask, numcolors: nat,
                  remap0: seq<byte>, ws: seq<RemappingWork>, remap: seq<byte>, k: nat)
    returns (remap': seq<byte>)
    requires |base| == 256 && numcolors <= |colors| && numcolors <= |remap0|
    requires WfList(base, colors, m, numcolors, ws) && SoleItem(ws)
    requires k == Sorting.CountIf(ws, Unmatched)
    requires RemapState(base, colors, m, numcolors, remap0, remap, ws, 0)
    requires MatchedExact(base, ws, remap)
    ensures RemapState(base, colors, m, numcolors, remap0, remap', ws, |ws|)
    ensures forall v :: 0 <= v < numcolors && IsUseful(m, v) ==> Good(base, colors[v], remap'[v])
    ensures MatchedExact(base, ws, remap')
    ensures k == 0 ==> remap' == remap
    ensures |remap'| == |remap|
    ensures forall v :: 0 <= v < |remap| && !PendingFrom(ws, 0, v) ==> remap'[v] == remap[v]
    ensures forall p :: 0 <= p < |ws| && ws[p].foreign == 2 ==>
              ws[p].palEntry < |remap| && remap'[ws[p].palEntry] == remap[ws[p].palEntry]
  {
    remap' := remap;
    if k > 0 {
      for i := 0 to |ws|
        invariant RemapState(base, colors, m, numcolors, remap0, remap', ws, i)
        invariant MatchedExact(base, ws, remap')
        invariant forall v :: 0 <= v < |remap| && !PendingFrom(ws, 0, v) ==> remap'[v] == remap[v]
      {
        if ws[i].foreign == 1 {
          var w := ws[i];
          assert WfEntry(base, colors, m, numcolors, w);
          assert PendingFrom(ws, 0, w.palEntry) by {
            assert 0 <= i < |ws| && Unmatched(ws[i]) && ws[i].palEntry == w.palEntry;
          }
          PartsOfRgb24(colors[w.palEntry]);
          var t := NearestColor.BestColor(base, RPart(w.color), GPart(w.color), BPart(w.color), 1, 255);
          remap' := NearStep(base, colors, m, numcolors, remap0, ws, remap', i, t);
        }
      }
    } else {
      Sorting.CountIfZero(ws, Unmatched);
    }
    forall v | 0 <= v < numcolors && IsUseful(m, v)
      ensures Good(base, colors[v], remap'[v])
    {
      NothingPending(ws, v);
    }
    forall p | 0 <= p < |ws| && ws[p].foreign == 2
      ensures ws[p].palEntry < |remap| && remap'[ws[p].palEntry] == remap[ws[p].palEntry]
    {
      MatchedNotPending(ws, p);
    }
  }

  /** The index of an item marked as an exact match has no pending item. */
  lemma MatchedNotPending(ws: seq<RemappingWork>, p: nat)
    requires p < |ws| && ws[p].foreign == 2 && SoleItem(ws)
    ensures !PendingFrom(ws, 0, ws[p].palEntry)
  {
    forall q | 0 <= q < |ws| && Unmatched(ws[q])
      ensures ws[q].palEntry != ws[p].palEntry
    {
      assert IsForeign(ws[p]) && IsForeign(ws[q]);
    }
  }

  /** No item is pending past the end of the list. */
  lemma NothingPending(ws: seq<RemappingWork>, v: nat)
    ensures !PendingFrom(ws, |ws|, v)
  {
  }

  /** One near match at position `i`: the pending item's index gets `t`, the
      index `BestColor` picked for its colour. */
  method NearStep(base: seq<PalEntry>, colors: seq<PalEntry>, m: Mask, numcolors: nat,
                  remap0: seq<byte>, ws: seq<RemappingWork>, remap: seq<byte>, i: nat, t: nat)
    returns (remap': seq<byte>)
    requires |base| == 256 && numcolors <= |colors| && numcolors <= |remap0|
    requires i < |ws| && Unmatched(ws[i])
    requires WfList(base, colors, m, numcolors, ws) && SoleItem(ws)
    requires var c := colors[ws[i].palEntry]; NearestColor.IsBest(base, c.r, c.g, c.b, 1, 255, t)
    requires RemapState(base, colors, m, numcolors, remap0, remap, ws, i)
    requires MatchedExact(base, ws, remap)
    ensures RemapState(base, colors, m, numcolors, remap0, remap', ws, i + 1)
    ensures MatchedExact(base, ws, remap')
    ensures |remap'| == |remap| && ws[i].palEntry < |remap'| && remap'[ws[i].palEntry] == t
    ensures forall v :: 0 <= v < |remap| && v != ws[i].palEntry ==> remap'[v] == remap[v]
  {
    assert WfEntry(base, colors, m, numcolors, ws[i]);
    remap' := remap[ws[i].palEntry := t];
    NearKeepsState(base, colors, m, numcolors, remap0, ws, remap, remap', i, t);
    NearKeepsMatched(base, ws, remap, remap', i, t);
  }

  /** A near match at `i` settles the pending item's index and leaves every
      other index as it was. */
  lemma NearKeepsState(base: seq<PalEntry>, colors: seq<PalEntry>, m: Mask, numcolors: nat,
                       remap0: seq<byte>, ws: seq<RemappingWork>, remap: seq<byte>, remap': seq<byte>, i: nat, t: nat)
    requires |base| == 256 && numcolors <= |colors| && numcolors <= |remap0|
    requires i < |ws| && Unmatched(ws[i]) && WfEntry(base, colors, m, numcolors, ws[i])
    requires var c := colors[ws[i].palEntry]; NearestColor.IsBest(base, c.r, c.g, c.b, 1, 255, t)
    requires RemapState(base, colors, m, numcolors, remap0, remap, ws, i)
    requires remap' == remap[ws[i].palEntry := t]
    ensures RemapState(base, colors, m, numcolors, remap0, remap', ws, i + 1)
  {
    var u := ws[i].palEntry;
    assert Good(base, colors[u], remap'[u]);
    forall v | 0 <= v < numcolors && IsUseful(m, v) && v != u
      ensures Good(base, colors[v], remap'[v]) || PendingFrom(ws, i + 1, v)
    {
      if !Good(base, colors[v], remap'[v]) {
        var p :| i <= p < |ws| && Unmatched(ws[p]) && ws[p].palEntry == v;
      }
    }
  }

  /** A near match touches no index that an exact match settled. */
  lemma NearKeepsMatched(base: seq<PalEntry>, ws: seq<RemappingWork>, remap: seq<byte>, remap': seq<byte>, i: nat, t: nat)
    requires |base| == 256 && 1 <= t <= 255
    requires i < |ws| && Unmatched(ws[i]) && SoleItem(ws)
    requires MatchedExact(base, ws, remap) && ws[i].palEntry < |remap|
    requires remap' == remap[ws[i].palEntry := t]
    ensures MatchedExact(base, ws, remap')
  {
    forall p | 0 <= p < |ws| && ws[p].foreign == 2
      ensures ws[p].palEntry != ws[i].palEntry
    {
      assert IsForeign(ws[p]) && IsForeign(ws[i]);
    }
  }

  /** Useful entries whose colour is that of `colors[u]`. */
  ghost predicate SoleColor(colors: seq<PalEntry>, m: Mask, numcolors: nat, u: nat)
    requires numcolors <= |colors| && u < numcolors
  {
    forall v :: 0 <= v < numcolors && IsUseful(m, v) && Rgb24(colors[v]) == Rgb24(colors[u]) ==> v == u
  }

  /** `MakeRemap`. `base` is the 256-entry base palette, `colors` the foreign
      palette, `m` the `useful` flags; the returned table replaces `remap`. */
  method MakeRemap(base: seq<PalEntry>, colors: seq<PalEntry>, remap: seq<byte>, m: Mask, numcolors: nat)
    returns (remap': seq<byte>)
    requires |base| == 256 && numcolors <= 256 && numcolors <= |colors| && numcolors <= |remap|
    requires CoversRange(m, numcolors)
    ensures |remap'| == |remap|
    ensures forall i :: numcolors <= i < |remap| ==> remap'[i] == remap[i]
    ensures forall i :: 0 <= i < numcolors && !IsUseful(m, i) ==> remap'[i] == 0
    ensures forall i :: 0 <= i < numcolors && IsUseful(m, i) ==> Good(base, colors[i], remap'[i])
    ensures forall i :: 0 <= i < numcolors && IsUseful(m, i) && (exists j :: 1 <= j <= 254 && Rgb24(base[j]) == Rgb24(colors[i])) ==>
              Rgb24(base[remap'[i]]) == Rgb24(colors[i])
    ensures forall i :: 0 <= i < numcolors && IsUseful(m, i) && (forall j :: 1 <= j <= 255 ==> Rgb24(base[j]) != Rgb24(colors[i])) ==>
              NearestColor.IsBest(base, colors[i].r, colors[i].g, colors[i].b, 1, 255, remap'[i]) && remap'[i] <= 254
    ensures forall i :: 0 <= i < numcolors && IsUseful(m, i) && SoleColor(colors, m, numcolors, i) &&
                        (exists j :: 1 <= j <= 255 && Rgb24(base[j]) == Rgb24(colors[i])) ==>
              Rgb24(base[remap'[i]]) == Rgb24(colors[i])
  {
    var ws0, remap1, k := BuildWorkspace(base, colors, m, numcolors, remap);
    WorkLeIsTotalPreorder();
    var s0 := Sorting.Sort(ws0, WorkLe);
    SortedFacts(base, colors, m, numcolors, remap, remap1, ws0, s0);
    Sorting.CountIfPermutation(ws0, s0, Unmatched);
    var ws, remap2, k2 := ExactPass(base, colors, m, numcolors, remap, s0, remap1, k);
    remap' := NearPass(base, colors, m, numcolors, remap, ws, remap2, k2);
    SoleColorsExact(base, colors, m, numcolors, s0, ws, remap');
    forall i | 0 <= i < numcolors && IsUseful(m, i) {
      GoodMeaning(base, colors[i], remap'[i]);
    }
  }

  /** The sorted work list: ordered by `sortforremap2`, well formed, each
      foreign index present once, every base entry 1..255 and every useful
      foreign entry present. */
  ghost predicate SortedList(base: seq<PalEntry>, colors: seq<PalEntry>, m: Mask, numcolors: nat, s0: seq<RemappingWork>)
    requires |base| == 256 && numcolors <= 256 && numcolors <= |colors|
  {
    && Sorting.SortedBy(WorkLe, s0)
    && WfList(base, colors, m, numcolors, s0) && SoleItem(s0)
    && (forall p :: 0 <= p < |s0| ==> s0[p].foreign <= 1)
    && (forall v :: 0 <= v < numcolors && IsUseful(m, v) ==>
          exists p :: 0 <= p < |s0| && s0[p] == RemappingWork(Rgb24(colors[v]), 1, v))
    && (forall j :: 1 <= j <= 255 ==> exists q :: 0 <= q < |s0| && s0[q] == RemappingWork(Rgb24(base[j]), 0, j))
  }

  /** A useful colour that no other useful entry shares and that the base
      palette holds at some index in 1..255 is always matched exactly. */
  lemma SoleColorsExact(base: seq<PalEntry>, colors: seq<PalEntry>, m: Mask, numcolors: nat,
                        s0: seq<RemappingWork>, ws: seq<RemappingWork>, remap: seq<byte>)
    requires |base| == 256 && numcolors <= 256 && numcolors <= |colors|
    requires SortedList(base, colors, m, numcolors, s0)
    requires |ws| == |s0|
    requires forall p :: 0 <= p < |ws| ==> ws[p].color == s0[p].color && ws[p].palEntry == s0[p].palEntry
    requires forall p :: 0 <= p < |s0| - 1 && Unmatched(s0[p]) && s0[p + 1].foreign == 0 && s0[p + 1].color == s0[p].color ==>
               ws[p].foreign == 2
    requires MatchedExact(base, ws, remap)
    ensures forall i :: 0 <= i < numcolors && IsUseful(m, i) && SoleColor(colors, m, numcolors, i) &&
                        (exists j :: 1 <= j <= 255 && Rgb24(base[j]) == Rgb24(colors[i])) ==>
              i < |remap| && Rgb24(base[remap[i]]) == Rgb24(colors[i])
  {
    forall i | 0 <= i < numcolors && IsUseful(m, i) && SoleColor(colors, m, numcolors, i) &&
               (exists j :: 1 <= j <= 255 && Rgb24(base[j]) == Rgb24(colors[i]))
      ensures i < |remap| && Rgb24(base[remap[i]]) == Rgb24(colors[i])
    {
      var j :| 1 <= j <= 255 && Rgb24(base[j]) == Rgb24(colors[i]);
      var idx :| 0 <= idx < |s0| && s0[idx] == RemappingWork(Rgb24(colors[i]), 1, i);
      var q :| 0 <= q < |s0| && s0[q] == RemappingWork(Rgb24(base[j]), 0, j);
      ExactNeighbour(base, colors, m, numcolors, s0, i, idx, q);
      assert ws[idx].foreign == 2;
    }
  }

  /** What sorting keeps of the built list: every item, hence well-formedness,
      distinctness, and the presence of each base entry and each useful
      foreign entry. */
  lemma SortedFacts(base: seq<PalEntry>, colors: seq<PalEntry>, m: Mask, numcolors: nat,
                    remap0: seq<byte>, remap: seq<byte>, ws0: seq<RemappingWork>, s0: seq<RemappingWork>)
    requires |base| == 256 && numcolors <= 256 && numcolors <= |colors| && numcolors <= |remap0|
    requires multiset(s0) == multiset(ws0) && Sorting.SortedBy(WorkLe, s0)
    requires RemapState(base, colors, m, numcolors, remap0, remap, ws0, 0)
    requires 255 <= |ws0|
    requires forall p :: 0 <= p < 255 ==> ws0[p] == RemappingWork(Rgb24(base[p + 1]), 0, p + 1)
    requires forall p :: 255 <= p < |ws0| ==> Unmatched(ws0[p])
    requires WfList(base, colors, m, numcolors, ws0) && Sorting.Distinct(ws0)
    requires forall v :: 0 <= v < numcolors && IsUseful(m, v) ==> PendingFrom(ws0, 0, v)
    ensures |s0| == |ws0|
    ensures SortedList(base, colors, m, numcolors, s0)
    ensures RemapState(base, colors, m, numcolors, remap0, remap, s0, 0)
  {
    assert |s0| == |multiset(s0)| == |multiset(ws0)| == |ws0|;
    SortedItems(base, colors, m, numcolors, ws0, s0);
    Sorting.DistinctPermutation(ws0, s0);
    DistinctSole(base, colors, m, numcolors, s0);
    SortedMembers(base, colors, m, numcolors, ws0, s0);
    forall v | 0 <= v < numcolors && IsUseful(m, v)
      ensures PendingFrom(s0, 0, v)
    {
      var p :| 0 <= p < |s0| && s0[p] == RemappingWork(Rgb24(colors[v]), 1, v);
    }
  }

  /** Every item of the sorted list is an item of the built list. */
  lemma SortedItems(base: seq<PalEntry>, colors: seq<PalEntry>, m: Mask, numcolors: nat,
                    ws0: seq<RemappingWork>, s0: seq<RemappingWork>)
    requires |base| == 256 && numcolors <= |colors|
    requires multiset(s0) == multiset(ws0) && 255 <= |ws0|
    requires forall p :: 0 <= p < 255 ==> ws0[p] == RemappingWork(Rgb24(base[p + 1]), 0, p + 1)
    requires forall p :: 255 <= p < |ws0| ==> Unmatched(ws0[p])
    requires WfList(base, colors, m, numcolors, ws0)
    ensures WfList(base, colors, m, numcolors, s0)
    ensures forall p :: 0 <= p < |s0| ==> s0[p].foreign <= 1
  {
    forall p | 0 <= p < |s0|
      ensures WfEntry(base, colors, m, numcolors, s0[p]) && s0[p].foreign <= 1
    {
      assert s0[p] in multiset(ws0);
      var r :| 0 <= r < |ws0| && ws0[r] == s0[p];
      assert WfEntry(base, colors, m, numcolors, ws0[r]);
      if r < 255 {
        assert ws0[r].foreign == 0;
      } else {
        assert Unmatched(ws0[r]);
      }
    }
  }

  /** Every base entry 1..255 and every useful foreign entry is in the sorted list. */
  lemma SortedMembers(base: seq<PalEntry>, colors: seq<PalEntry>, m: Mask, numcolors: nat,
                      ws0: seq<RemappingWork>, s0: seq<RemappingWork>)
    requires |base| == 256 && numcolors <= 256 && numcolors <= |colors|
    requires multiset(s0) == multiset(ws0) && 255 <= |ws0|
    requires forall p :: 0 <= p < 255 ==> ws0[p] == RemappingWork(Rgb24(base[p + 1]), 0, p + 1)
    requires WfList(base, colors, m, numcolors, ws0)
    requires forall v :: 0 <= v < numcolors && IsUseful(m, v) ==> PendingFrom(ws0, 0, v)
    ensures forall v :: 0 <= v < numcolors && IsUseful(m, v) ==>
              exists p :: 0 <= p < |s0| && s0[p] == RemappingWork(Rgb24(colors[v]), 1, v)
    ensures forall j :: 1 <= j <= 255 ==> exists q :: 0 <= q < |s0| && s0[q] == RemappingWork(Rgb24(base[j]), 0, j)
  {
    forall v | 0 <= v < numcolors && IsUseful(m, v)
      ensures exists p :: 0 <= p < |s0| && s0[p] == RemappingWork(Rgb24(colors[v]), 1, v)
    {
      var r :| 0 <= r < |ws0| && Unmatched(ws0[r]) && ws0[r].palEntry == v;
      assert WfEntry(base, colors, m, numcolors, ws0[r]);
      assert ws0[r] == RemappingWork(Rgb24(colors[v]), 1, v);
      assert ws0[r] in multiset(s0);
    }
    forall j | 1 <= j <= 255
      ensures exists q :: 0 <= q < |s0| && s0[q] == RemappingWork(Rgb24(base[j]), 0, j)
    {
      assert ws0[j - 1] in multiset(s0);
    }
  }

  /** In the sorted list, the single foreign item of a colour that the base
      palette also holds is directly followed by a base item of that colour. */
  lemma ExactNeighbour(base: seq<PalEntry>, colors: seq<PalEntry>, m: Mask, numcolors: nat,
                       s0: seq<RemappingWork>, u: nat, idx: nat, q: nat)
    requires |base| == 256 && numcolors <= 256 && numcolors <= |colors| && u < numcolors
    requires Sorting.SortedBy(WorkLe, s0)
    requires WfList(base, colors, m, numcolors, s0) && SoleItem(s0)
    requires forall p :: 0 <= p < |s0| ==> s0[p].foreign <= 1
    requires SoleColor(colors, m, numcolors, u)
    requires idx < |s0| && s0[idx] == RemappingWork(Rgb24(colors[u]), 1, u)
    requires q < |s0| && s0[q].foreign == 0 && s0[q].color == s0[idx].color
    ensures idx + 1 < |s0| && s0[idx + 1].foreign == 0 && s0[idx + 1].color == s0[idx].color
  {
    SortForRemap2Sign(s0[q], s0[idx]);
    assert idx < q;
    var n := idx + 1;
    SortForRemap2Sign(s0[idx], s0[n]);
    SortForRemap2Sign(s0[n], s0[q]);
    assert s0[n].color == s0[idx].color;
    assert WfEntry(base, colors, m, numcolors, s0[n]);
  }
}

=== FILE: sorting.dfy ===
/** Sorting by a comparator, as the C library's `qsort` promises it: the
    output is a permutation of the input, ordered by the comparator.
    `qsort` is not stable, so callers may rely on nothing else; the
    implementation below is one admissible ordering and callers reason
    only through the contract of `Sort`. */
module Sorting {

  ghost predicate Total<T(!new)>(le: (T, T) -> bool) {
    forall x, y :: le(x, y) || le(y, x)
  }

  ghost predicate Transitive<T(!new)>(le: (T, T) -> bool) {
    forall x, y, z :: le(x, y) && le(y, z) ==> le(x, z)
  }

  predicate SortedBy<T>(le: (T, T) -> bool, s: seq<T>) {
    forall i, j | 0 <= i < j < |s| :: le(s[i], s[j])
  }

  /** Inserts `x` into the sorted `t` after every element not above it. */
  method Insert<T(!new)>(t: seq<T>, x: T, le: (T, T) -> bool) returns (u: seq<T>)
    requires Total(le) && Transitive(le)
    requires SortedBy(le, t)
    ensures multiset(u) == multiset(t) + multiset{x}
    ensures SortedBy(le, u)
  {
    var p := 0;
    while p < |t| && le(t[p], x)
      invariant 0 <= p <= |t|
      invariant forall k :: 0 <= k < p ==> le(t[k], x)
    {
      p := p + 1;
    }
    forall k | p <= k < |t|
      ensures le(x, t[k])
    {
      assert !le(t[p], x);
      assert k == p || le(t[p], t[k]);
    }
    u := t[..p] + [x] + t[p..];
    assert t == t[..p] + t[p..];
    InsertSorted(t, x, p, le);
  }

  /** Placing `x` between a prefix of elements not above it and a suffix of
      elements not below it keeps a sorted sequence sorted. */
  lemma InsertSorted<T>(t: seq<T>, x: T, p: int, le: (T, T) -> bool)
    requires 0 <= p <= |t| && SortedBy(le, t)
    requires forall k :: 0 <= k < p ==> le(t[k], x)
    requires forall k :: p <= k < |t| ==> le(x, t[k])
    ensures SortedBy(le, t[..p] + [x] + t[p..])
  {
    var u := t[..p] + [x] + t[p..];
    forall i, j | 0 <= i < j < |u|
      ensures le(u[i], u[j])
    {
      if i < p && j == p {
        assert u[i] == t[i];
      } else if i < p && j > p {
        assert u[i] == t[i] && u[j] == t[j - 1];
      } else if i == p {
        assert u[j] == t[j - 1];
      } else if i > p {
        assert u[i] == t[i - 1] && u[j] == t[j - 1];
      }
    }
  }

  /** The `qsort` contract: a permutation of `s`, sorted by `le`. */
  method Sort<T(!new)>(s: seq<T>, le: (T, T) -> bool) returns (t: seq<T>)
    requires Total(le) && Transitive(le)
    ensures multiset(t) == multiset(s)
    ensures SortedBy(le, t)
  {
    t := [];
    for i := 0 to |s|
      invariant multiset(t) == multiset(s[..i])
      invariant SortedBy(le, t)
    {
      t := Insert(t, s[i], le);
      assert s[..i + 1] == s[..i] + [s[i]];
    }
    assert s[..|s|] == s;
  }

  predicate Distinct<T(==)>(s: seq<T>) {
    forall i, j | 0 <= i < j < |s| :: s[i] != s[j]
  }

  lemma {:induction false} DistinctMultiplicity<T>(s: seq<T>, x: T)
    requires Distinct(s)
    ensures multiset(s)[x] <= 1
    decreases |s|
  {
    if s != [] {
      assert s == [s[0]] + s[1..];
      assert Distinct(s[1..]) by {
        forall i, j | 0 <= i < j < |s[1..]|
          ensures s[1..][i] != s[1..][j]
        {
          assert s[1..][i] == s[i + 1] && s[1..][j] == s[j + 1];
        }
      }
      DistinctMultiplicity(s[1..], x);
      if x == s[0] {
        assert x !in s[1..];
      }
    }
  }

  lemma TwoOccurrences<T>(s: seq<T>, i: int, j: int)
    requires 0 <= i < j < |s| && s[i] == s[j]
    ensures multiset(s)[s[i]] >= 2
  {
    assert s == s[..j] + s[j..];
    assert s[i] in s[..j];
    assert s[j] in s[j..];
  }

  /** A permutation of a sequence without repeats has no repeats. */
  lemma DistinctPermutation<T>(a: seq<T>, b: seq<T>)
    requires multiset(a) == multiset(b)
    requires Distinct(a)
    ensures Distinct(b)
  {
    forall i, j | 0 <= i < j < |b|
      ensures b[i] != b[j]
    {
      if b[i] == b[j] {
        TwoOccurrences(b, i, j);
        DistinctMultiplicity(a, b[i]);
        assert false;
      }
    }
  }

  /** Number of elements of `s` that satisfy `f`. */
  function CountIf<T>(s: seq<T>, f: T -> bool): nat {
    if s == [] then 0 else (if f(s[0]) then 1 else 0) + CountIf(s[1..], f)
  }

  lemma {:induction false} CountIfConcat<T>(s: seq<T>, t: seq<T>, f: T -> bool)
    ensures CountIf(s + t, f) == CountIf(s, f) + CountIf(t, f)
    decreases |s|
  {
    if s != [] {
      assert (s + t)[1..] == s[1..] + t;
      CountIfConcat(s[1..], t, f);
    } else {
      assert s + t == t;
    }
  }

  /** Removing the element at `i` takes it out of the multiset. */
  lemma MultisetRemove<T>(b: seq<T>, i: int)
    requires 0 <= i < |b|
    ensures multiset(b[..i] + b[i + 1..]) == multiset(b) - multiset{b[i]}
  {
    var left, right := b[..i], b[i + 1..];
    assert b == left + [b[i]] + right;
    assert multiset(b) == multiset(left) + multiset{b[i]} + multiset(right);
    assert multiset(left + right) == multiset(left) + multiset(right);
  }

  /** Removing the element at `i` takes its share out of the count. */
  lemma CountIfRemove<T>(b: seq<T>, i: int, f: T -> bool)
    requires 0 <= i < |b|
    ensures CountIf(b, f) == CountIf(b[..i] + b[i + 1..], f) + (if f(b[i]) then 1 else 0)
  {
    var left, right := b[..i], b[i + 1..];
    assert b == left + ([b[i]] + right);
    CountIfConcat(left, [b[i]] + right, f);
    CountIfConcat([b[i]], right, f);
    CountIfConcat(left, right, f);
  }

  /** Counting is invariant under permutation. */
  lemma {:induction false} CountIfPermutation<T>(a: seq<T>, b: seq<T>, f: T -> bool)
    requires multiset(a) == multiset(b)
    ensures CountIf(a, f) == CountIf(b, f)
    decreases |a|
  {
    if a == [] {
      assert |multiset(b)| == 0;
    } else {
      var x := a[0];
      assert x in multiset(b);
      var i :| 0 <= i < |b| && b[i] == x;
      CountIfRemove(b, i, f);
      MultisetRemove(b, i);
      assert a == [x] + a[1..];
      assert multiset(a[1..]) == multiset(a) - multiset{x};
      CountIfPermutation(a[1..], b[..i] + b[i + 1..], f);
    }
  }

  /** Overwriting one element changes the count by at most the two elements' share. */
  lemma CountIfUpdate<T>(s: seq<T>, p: int, x: T, f: T -> bool)
    requires 0 <= p < |s|
    ensures CountIf(s[p := x], f) + (if f(s[p]) then 1 else 0)
         == CountIf(s, f) + (if f(x) then 1 else 0)
  {
    assert s == s[..p] + ([s[p]] + s[p + 1..]);
    assert s[p := x] == s[..p] + ([x] + s[p + 1..]);
    CountIfConcat(s[..p], [s[p]] + s[p + 1..], f);
    CountIfConcat(s[..p], [x] + s[p + 1..], f);
    CountIfConcat([s[p]], s[p + 1..], f);
    CountIfConcat([x], s[p + 1..], f);
  }

  /** A zero count means no element satisfies `f`. */
  lemma {:induction false} CountIfZero<T>(s: seq<T>, f: T -> bool)
    requires CountIf(s, f) == 0
    ensures forall i :: 0 <= i < |s| ==> !f(s[i])
    decreases |s|
  {
    if s != [] {
      CountIfZero(s[1..], f);
      forall i | 1 <= i < |s|
        ensures !f(s[i])
      {
        assert s[i] == s[1..][i - 1];
      }
    }
  }

  /** Two different positions of a permutation come from two different
      positions of the original. */
  lemma TwoPositions<T>(a: seq<T>, b: seq<T>, p: int, q: int) returns (p': int, q': int)
    requires multiset(a) == multiset(b)
    requires 0 <= p < q < |b|
    ensures 0 <= p' < |a| && 0 <= q' < |a| && p' != q'
    ensures a[p'] == b[p] && a[q'] == b[q]
  {
    assert b[p] in multiset(a);
    p' :| 0 <= p' < |a| && a[p'] == b[p];
    var rest := a[..p'] + a[p' + 1..];
    MultisetRemove(a, p');
    if b[p] == b[q] {
      TwoOccurrences(b, p, q);
    }
    assert b[q] in multiset(rest);
    var r :| 0 <= r < |rest| && rest[r] == b[q];
    if r < p' {
      q' := r;
      assert rest[r] == a[r];
    } else {
      q' := r + 1;
      assert rest[r] == a[r + 1];
    }
  }
}
